=== FILE: README.md ===
# auth-service, modelled in Dafny

A model of the authentication service of the live-bootcamp project. It covers:

- The value types that parse untrusted input: `Email`, `Password`, `LoginAttemptId` and `TwoFACode`.
- The three in-memory stores: users (`HashMapUserStore`, plus the older `String`-keyed `HashmapUserStore`), pending 2FA challenges (`HashMapTwoFACodeStore`), and revoked tokens (`HashSetBannedTokenStore`). Each is a class with a `map` or `set` field.
- The store error enums and their hand-written equality.
- The token service of `utils/auth.rs`: claims, the auth cookie, and revocation-aware validation.
- The mapping from `AuthAPIError` to HTTP responses.
- The handlers `signup`, `login` (with `handle_2fa` and `handle_no_2fa`), `verify_2fa`, `logout` and `verify_token`.
- `get_auth_address` of the app service.

Every handler is a `method` that calls the store methods in the source's order. Its `ensures` ties the reply and the store's new contents to a pure function of the request and the old contents (`SignupResult`, `LoginResult`, `Verify2FAResult`, `LogoutResult`, `VerifyTokenResult`). The `Lifecycle` module proves properties of request sequences over those functions, including:

- signup twice conflicts;
- a challenge is consumed only when quoted exactly, and only once;
- a second login replaces the first challenge;
- a revoked token fails `verify_token` and a second logout;
- the scenario signup → login → verify-token → logout → verify-token answers 201, 200, 200, 200, 401.

Collaborators the service does not implement itself are inputs of the model:

- The e-mail validator (`validator::validate_email`) is the `validEmail` field of `Auth.Config`.
- JWT signing and decoding under the secret are the `encode` and `decode` fields of `Auth.Config`. The decoder is given the current time because it also checks expiry.
- The clock (`Utc::now`) is a `now` argument, in seconds.
- The random draws of `Uuid::new_v4` and of `TwoFACode::default` are a `Uuid` argument and a `SixDigits` argument.
- Whether `send_email` succeeds is a `delivered` argument. The notification the handler attempted is returned.

`String::len` counts UTF-8 bytes, so `Password::parse` is modelled on the UTF-8 length of the code points. `str::parse::<u32>` accepts an optional `+` and then one or more ASCII digits, with no upper bound on the count of leading zeros, and values up to 4294967295. `Uuid::parse_str` accepts the simple, hyphenated, braced and URN forms with hex digits in either case, and `to_string` prints lowercase hyphenated.

Two places where the source disagrees with itself are modelled as the code runs:

- `TwoFACode::default` in `domain/two_fa_code.rs` (lines 18-25) draws six digits, each 0 to 9, and its comment at line 21 calls a code "6 digits". `TwoFACode::parse` (lines 8-15) instead reads the text as a `u32` and accepts only 100000..=999999. The model keeps both as written. `TwoFACodes.DefaultParsesIffNoLeadingZero` shows that a code drawn by `TwoFACode::default` with a leading zero cannot be parsed back. `Lifecycle.LeadingZeroChallengeNeverConsumed` shows that such a challenge can never be verified.
- `routes/verify_token.rs` (line 11) calls `validate_token` with the token alone. The definition in `utils/auth.rs` (lines 29-32) takes the revocation store as a second argument, and the logout handler passes it (`routes/logout.rs`, line 22). The model takes the `utils/auth.rs` signature, so `verify_token` consults the revocation set.

`AuthAPIError::UnexpectedError` carries no payload, as in `domain/error.rs`. The handlers that wrap a cause in it reduce to that variant. `logout` is modelled from the handler text kept in `routes/logout.rs`, which is commented out there.

## Model

| member | source | states |
|---|---|---|
| Passwords.Utf8Width | auth-service/src/domain/password.rs:15 | A character takes 1 to 4 bytes in UTF-8: exactly 1 for ASCII and exactly 4 for code points from U+10000 up. |
| Passwords.Utf8Length | auth-service/src/domain/password.rs:15 | the byte length lies between the count of characters and four times it, and equals the count exactly for ASCII text |
| Passwords.Parse | auth-service/src/domain/password.rs:14-20 | rejected exactly when the UTF-8 length is below 8, with the source's message; an accepted password keeps the input unchanged |
| Passwords.EightCharactersSuffice | auth-service/src/domain/password.rs:50-59 | any string of at least 8 characters is accepted and round-trips |
| Passwords.AsciiRejectedIffShort | auth-service/src/domain/password.rs:14-20 | for ASCII input, rejection is exactly "fewer than 8 characters" |
| Passwords.TwoEmojiAccepted | auth-service/src/domain/password.rs:15 | two 4-byte characters pass the byte-length check |
| Passwords.ShortExamplesRejected | auth-service/src/domain/password.rs:36-45 | "" and "1234567" are rejected |
| TwoFACodes.DigitValue | auth-service/src/domain/two_fa_code.rs:9 | an ASCII digit's value is below 10 |
| TwoFACodes.ParseU32 | auth-service/src/domain/two_fa_code.rs:9 | any value it yields fits in a u32 |
| TwoFACodes.ShortNumeralsFit | auth-service/src/domain/two_fa_code.rs:9 | one to nine digits parse to their decimal value, the same with a leading '+'; "", "+" and a leading '-' do not parse |
| TwoFACodes.U32Boundary | auth-service/src/domain/two_fa_code.rs:9 | "4294967295" parses to the u32 maximum and "4294967296" overflows |
| TwoFACodes.DecimalAppend | auth-service/src/domain/two_fa_code.rs:9 | appending a digit multiplies the value by ten and adds that digit |
| TwoFACodes.Parse | auth-service/src/domain/two_fa_code.rs:8-15 | accepted exactly when the u32 reading lies in 100000..=999999; the code keeps the input text; otherwise the error "Invalid 2FA code" |
| TwoFACodes.DigitChar | auth-service/src/domain/two_fa_code.rs:23 | a digit prints as the ASCII digit of that value |
| TwoFACodes.Default | auth-service/src/domain/two_fa_code.rs:18-25 | six ASCII digits, the i-th showing the i-th draw |
| TwoFACodes.SixDigitCodes | auth-service/src/domain/two_fa_code.rs:8-15 | a six-digit string is accepted exactly when it does not start with '0' |
| TwoFACodes.ShortInputRejected | auth-service/src/domain/two_fa_code.rs:52-64 | at most five characters are always rejected |
| TwoFACodes.LongNumeralRejected | auth-service/src/domain/two_fa_code.rs:52-64 | seven or more digits without a leading zero are rejected |
| TwoFACodes.NonDigitRejected | auth-service/src/domain/two_fa_code.rs:66-76 | a character other than a digit, past an optional leading '+', makes parsing fail |
| TwoFACodes.NonCanonicalSpellingsAccepted | auth-service/src/domain/two_fa_code.rs:9-11 | "+123456" and "0123456" are accepted too, and kept as typed, so they differ from "123456" |
| TwoFACodes.TestCases | auth-service/src/domain/two_fa_code.rs:38-99 | "123456" and "987654" are accepted and kept; "12345", "1234567" and "12345a" are rejected |
| TwoFACodes.DefaultParsesIffNoLeadingZero | auth-service/src/domain/two_fa_code.rs:8-25 | a generated code parses back exactly when its first draw is not 0 |
| TwoFACodes.DefaultCanBeUnparseable | auth-service/src/domain/two_fa_code.rs:18-25 | the draw 0,1,2,3,4,5 yields "012345", which parse rejects |
| TwoFACodes.EverySixDigitStringGenerable | auth-service/src/domain/two_fa_code.rs:23 | every six-digit string is the output of some draw |
| Uuids.HexChar | auth-service/src/domain/login_attempt_id.rs:17 | a nibble prints as a lowercase hex digit that reads back as the same nibble |
| Uuids.HexCharOfValue | auth-service/src/domain/login_attempt_id.rs:16-17 | a hex digit of either case, read and printed again, comes out as its lower-case form |
| Uuids.ParseHex | auth-service/src/domain/login_attempt_id.rs:16 | succeeds exactly when every character is a hex digit of either case, giving one nibble per character; each nibble prints as the lower-case form of the character it was read from |
| Uuids.Simple | auth-service/src/domain/login_attempt_id.rs:16 | the simple form is 32 characters long |
| Uuids.Hyphenated | auth-service/src/domain/login_attempt_id.rs:17 | the printed form is 36 characters long |
| Uuids.StripHyphens | auth-service/src/domain/login_attempt_id.rs:16 | removing the four hyphens leaves 32 characters |
| Uuids.Parse | auth-service/src/domain/login_attempt_id.rs:16 | only 32, 36, 38 and 45 characters can parse; a 36-character text needs hyphens at 8, 13, 18 and 23; a 38-character one needs the braces around a hyphenated form; a 45-character one needs the "urn:uuid:" prefix before a hyphenated form |
| Uuids.SimpleParses | auth-service/src/domain/login_attempt_id.rs:16 | the simple form of a UUID parses to it |
| Uuids.StripHyphenated | auth-service/src/domain/login_attempt_id.rs:16-17 | the printed form has hyphens at 8, 13, 18 and 23, and stripping them gives the simple form |
| Uuids.HyphenatedRoundTrip | auth-service/src/domain/login_attempt_id.rs:16-17 | parsing the printed form gives the UUID back |
| Uuids.AllFormsParse | auth-service/src/domain/login_attempt_id.rs:16 | the simple, hyphenated, braced and URN forms of a UUID, and its simple form in upper case, all parse to that UUID |
| Uuids.CanonicalIsFixedPoint | auth-service/src/domain/login_attempt_id.rs:16-17 | reprinting a parsed UUID's printed form changes nothing |
| Uuids.NewV4 | auth-service/src/domain/login_attempt_id.rs:23 | a version-4 UUID has version nibble 4 and variant nibble 8 to 11; every other nibble is the random draw |
| LoginAttemptIds.Parse | auth-service/src/domain/login_attempt_id.rs:14-18 | accepted exactly when the text is a UUID in one of its four forms; the id is the UUID's canonical printing, 36 characters; otherwise "Invalid login attempt id" |
| LoginAttemptIds.Default | auth-service/src/domain/login_attempt_id.rs:21-25 | a fresh id parses back to itself and shows version 4 |
| LoginAttemptIds.CanonicalRoundTrip | auth-service/src/domain/login_attempt_id.rs:37-51 | a printed UUID parses to an id holding the same text |
| LoginAttemptIds.ParseIdempotent | auth-service/src/domain/login_attempt_id.rs:14-18 | parsing an id's own text gives the same id |
| LoginAttemptIds.NotAUuidRejected | auth-service/src/domain/login_attempt_id.rs:53-63 | "not-a-uuid" is rejected |
| Emails.Parse | auth-service/src/domain/email.rs:9-15 | accepted exactly when the validator accepts, keeping the address unchanged; otherwise `InvalidEmail` |
| DataStores.SameUserStoreError | auth-service/src/domain/data_stores.rs:39-49 | two errors are equal exactly when they are identical or both `UnexpectedError`, whatever their causes |
| DataStores.SameTwoFACodeStoreError | auth-service/src/domain/data_stores.rs:75-83 | the same for the 2FA store errors |
| DataStores.UserStoreErrorEquality | auth-service/src/domain/data_stores.rs:39-49 | the user-store error equality is reflexive, symmetric and transitive |
| DataStores.TwoFACodeStoreErrorEquality | auth-service/src/domain/data_stores.rs:75-83 | the same for the 2FA store errors |
| HashMapUserStores.ValidateUserResult | auth-service/src/services/data_stores/hashmap_user_store.rs:36-51 | `Ok` exactly when the user exists with that password; `InvalidCredentials` exactly when it exists with another; `UserNotFound` exactly when absent |
| HashMapUserStores.HashMapUserStore.constructor | auth-service/src/services/data_stores/hashmap_user_store.rs:11-15 | a new store is empty |
| HashMapUserStores.HashMapUserStore.AddUser | auth-service/src/services/data_stores/hashmap_user_store.rs:20-27 | an existing email gives `UserAlreadyExists` and no change; otherwise the user is inserted under its email; users stay keyed by their email |
| HashMapUserStores.HashMapUserStore.GetUser | auth-service/src/services/data_stores/hashmap_user_store.rs:29-34 | the stored user, whose email is the one asked for, or `UserNotFound` |
| HashMapUserStores.HashMapUserStore.ValidateUser | auth-service/src/services/data_stores/hashmap_user_store.rs:36-51 | the three-way answer of `ValidateUserResult`, through `get_user` |
| HashMapUserStores.AddThenGet | auth-service/src/services/data_stores/hashmap_user_store.rs:97-150 | after adding a new user, get returns it and its own password validates |
| HashMapUserStores.AddLeavesOthers | auth-service/src/services/data_stores/hashmap_user_store.rs:115-132 | adding a user changes no other email's lookup |
| HashMapUserStores.UnitTestScenario | auth-service/src/services/data_stores/hashmap_user_store.rs:62-189 | on a fresh store: add succeeds, adding again conflicts, get finds the user and misses another email, and validate answers `Ok`, `InvalidCredentials` for a wrong password and `UserNotFound` for an unknown email |
| LegacyUserStores.ValidateUserResult | auth-service/src/services/hashmap_user_store.rs:40-51 | the same three-way answer over `String` keys and plain-text passwords |
| LegacyUserStores.HashmapUserStore.constructor | auth-service/src/services/hashmap_user_store.rs:18-22 | a new store is empty |
| LegacyUserStores.HashmapUserStore.AddUser | auth-service/src/services/hashmap_user_store.rs:24-31 | an existing email conflicts with no change; otherwise the user is inserted |
| LegacyUserStores.HashmapUserStore.GetUser | auth-service/src/services/hashmap_user_store.rs:33-38 | the stored user or `UserNotFound` |
| LegacyUserStores.HashmapUserStore.ValidateUser | auth-service/src/services/hashmap_user_store.rs:40-51 | the three-way answer through `get_user` |
| LegacyUserStores.AddThenGet | auth-service/src/services/hashmap_user_store.rs:95-147 | after adding a new user, get returns it and its password validates |
| LegacyUserStores.UnitTestScenario | auth-service/src/services/hashmap_user_store.rs:60-183 | the seven unit-test expectations: add succeeds, re-adding conflicts, get finds the user and misses an unknown email, and validate answers `Ok` for the right password, `InvalidCredentials` for a wrong one and `UserNotFound` for an unknown email |
| TwoFACodeStores.HashMapTwoFACodeStore.constructor | auth-service/src/services/data_stores/hashmap_two_fa_code_store.rs:11-17 | a new store is empty |
| TwoFACodeStores.HashMapTwoFACodeStore.AddCode | auth-service/src/services/data_stores/hashmap_two_fa_code_store.rs:21-29 | always `Ok`; the pair replaces any earlier challenge for that email |
| TwoFACodeStores.HashMapTwoFACodeStore.RemoveCode | auth-service/src/services/data_stores/hashmap_two_fa_code_store.rs:31-38 | a present email is removed with `Ok`; an absent one gives `LoginAttemptIdNotFound` and no change |
| TwoFACodeStores.HashMapTwoFACodeStore.GetCode | auth-service/src/services/data_stores/hashmap_two_fa_code_store.rs:40-48 | `Ok` exactly when the email has a challenge, and then that challenge |
| TwoFACodeStores.AddThenGet | auth-service/src/services/data_stores/hashmap_two_fa_code_store.rs:110-129 | after adding, get returns the pair just added; other emails are unaffected |
| TwoFACodeStores.RemoveThenGet | auth-service/src/services/data_stores/hashmap_two_fa_code_store.rs:77-92 | after removal, get finds nothing for that email; other emails are unaffected |
| TwoFACodeStores.OverwriteScenario | auth-service/src/services/data_stores/hashmap_two_fa_code_store.rs:58-145 | a second add for the same email is the pair get returns; the first removal succeeds, the second and a later get answer `LoginAttemptIdNotFound` |
| BannedTokenStores.HashSetBannedTokenStore.constructor | auth-service/src/services/data_stores/hashset_banned_token_store.rs:10-16 | a new store is empty |
| BannedTokenStores.HashSetBannedTokenStore.AddBannedToken | auth-service/src/services/data_stores/hashset_banned_token_store.rs:20-23 | always `Ok`; the set grows by exactly that token |
| BannedTokenStores.HashSetBannedTokenStore.CheckBannedToken | auth-service/src/services/data_stores/hashset_banned_token_store.rs:25-27 | always `Ok`, true exactly when the token was banned |
| BannedTokenStores.BanEffect | auth-service/src/services/data_stores/hashset_banned_token_store.rs:34-87 | banning is idempotent, the token is then banned, and no other token's status changes |
| BannedTokenStores.UnitTestScenario | auth-service/src/services/data_stores/hashset_banned_token_store.rs:34-87 | an unbanned token checks false before and after two other tokens are banned, and both banned tokens check true |
| Cookies.Add | auth-service/src/routes/login.rs:90 | the added cookie is the one held under its name; every other name keeps its cookie or its absence; a jar keyed by name stays so |
| Cookies.Get | auth-service/src/routes/logout.rs:16 | finds a cookie exactly when the name is held, and in a jar keyed by name it carries that name |
| Cookies.Remove | auth-service/src/routes/logout.rs:40 | the name is no longer held; every other name keeps its cookie or its absence; a jar keyed by name stays so |
| Cookies.JarLaws | auth-service/src/routes/login.rs:90 | after `add` the jar finds that cookie by name, after `remove` it finds none, and other names are unaffected |
| ApiErrors.IntoResponse | auth-service/src/domain/error.rs:24-47 | 409 exactly for `UserAlreadyExists`; 400 for invalid credentials or a missing token; 401 for an invalid token or incorrect credentials; 402 for failed verification; 500 for unexpected errors; each variant's body carries its own message, from "User already exists" to "Unexpected error" |
| ApiErrors.MessageIdentifiesVariant | auth-service/src/domain/error.rs:26-40 | the error message alone identifies the variant |
| Auth.AuthClaims | auth-service/src/utils/auth.rs:56-74 | claims exist exactly when now + 600 fits in a `usize`; their subject is the email and their expiry is now + 600 |
| Auth.GenerateAuthToken | auth-service/src/utils/auth.rs:56-87 | a token exists exactly when the expiry is representable and the encoder signs those claims, and it is the encoder's output |
| Auth.CreateAuthCookie | auth-service/src/utils/auth.rs:90-98 | the cookie is named "jwt", holds the token, and has path "/", HTTP-only and SameSite=Lax |
| Auth.GenerateAuthCookie | auth-service/src/utils/auth.rs:17-20 | a cookie exactly when a token is generated, and then the auth cookie of that token; a failure passes the token error on |
| Auth.IssuedCookieCarriesClaims | auth-service/src/utils/auth.rs:17-20 | the issued cookie is named "jwt" and holds the token signed for (email, now + 600) |
| Auth.ValidateTokenResult | auth-service/src/utils/auth.rs:29-50 | a banned token is rejected; otherwise the result is `Ok` exactly when decoding succeeds, and yields the decoded claims |
| Auth.ValidateToken | auth-service/src/utils/auth.rs:29-50 | asks the revocation store, then decodes, with the answer of `ValidateTokenResult` |
| Auth.RevokedTokenRejectedWithoutDecoding | auth-service/src/utils/auth.rs:33-41 | a banned token is rejected whatever the decoder would say |
| SignupRoute.SignupResult | auth-service/src/routes/signup.rs:8-47 | `InvalidCredentials` exactly for a rejected email or password; `UserAlreadyExists` exactly for a registered email; a valid request for an unregistered email answers 201 "User created successfully" and stores exactly that user; a failure changes no user |
| SignupRoute.Signup | auth-service/src/routes/signup.rs:8-47 | answer and new user map are those of `SignupResult`; the store stays keyed by email |
| LoginRoute.LoginResult | auth-service/src/routes/login.rs:13-44 | `InvalidCredentials` exactly for a rejected email or password; `IncorrectCredentials` exactly when validation fails; a challenge is stored or a mail sent only for an existing user that requires 2FA; a rejected request stores no challenge and sends no mail |
| LoginRoute.HandleTwoFAResult | auth-service/src/routes/login.rs:47-77 | the fresh (id, code) pair replaces the email's challenge; a mail with subject "Your 2FA Code" carrying the stored code is always attempted; `Ok` exactly when it is delivered, then 206 with "2FA required" and the stored id and the jar unchanged; otherwise `UnexpectedError` |
| LoginRoute.HandleNoTwoFAResult | auth-service/src/routes/login.rs:80-96 | `Ok` exactly when a token is generated for the email, then 200 with the regular body and the jar holding that token's auth cookie; otherwise `UnexpectedError` |
| LoginRoute.HandleTwoFA | auth-service/src/routes/login.rs:47-77 | reply, new challenge map and notification are those of `HandleTwoFAResult` |
| LoginRoute.HandleNoTwoFA | auth-service/src/routes/login.rs:80-96 | generates the auth cookie and adds it to the jar, with the reply of `HandleNoTwoFAResult` |
| LoginRoute.Login | auth-service/src/routes/login.rs:13-44 | reply, challenge map and notification are those of `LoginResult`; the user store is only read |
| Verify2FARoute.Verify2FAResult | auth-service/src/routes/verify_2fa.rs:13-58 | `InvalidCredentials` exactly when a field fails to parse; the challenge is removed exactly when id and code both match the stored pair; a well-formed request that removes nothing is refused with `IncorrectCredentials`; once the challenge is removed the answer is `Ok` exactly when a token is generated, with 200 and the jar holding its auth cookie, and `UnexpectedError` otherwise |
| Verify2FARoute.Verify2FA | auth-service/src/routes/verify_2fa.rs:13-58 | answer and new challenge map are those of `Verify2FAResult` |
| LogoutRoute.LogoutResult | auth-service/src/routes/logout.rs:11-43 | `MissingToken` exactly without a "jwt" cookie; `InvalidToken` exactly when its token fails validation; on success the token is banned and the reply jar is the request's jar with only the "jwt" cookie removed; a failure bans nothing |
| LogoutRoute.Logout | auth-service/src/routes/logout.rs:11-43 | answer and new revocation set are those of `LogoutResult` |
| VerifyTokenRoute.VerifyTokenResult | auth-service/src/routes/verify_token.rs:6-15 | 200 exactly when the token is not banned and decodes; otherwise `InvalidToken` |
| VerifyTokenRoute.VerifyToken | auth-service/src/routes/verify_token.rs:6-15 | the answer of `VerifyTokenResult`, writing nothing |
| Lifecycle.SignupThenSignupAgain | auth-service/src/routes/signup.rs:30-39 | after a successful signup the user is found as requested, and a second signup of the same email conflicts and changes nothing |
| Lifecycle.LoginWithoutTwoFA | auth-service/src/routes/login.rs:80-96 | correct credentials without 2FA give 200 and a "jwt" cookie signed for (email, now + 600); no challenge is stored and no mail is sent |
| Lifecycle.LoginWithTwoFA | auth-service/src/routes/login.rs:47-77 | with 2FA the fresh challenge replaces any earlier one; the mailed code is its code; the answered id is its id, with 206 exactly when the mail went out; otherwise an unexpected error with the challenge still stored |
| Lifecycle.VerifySucceedsOnce | auth-service/src/routes/verify_2fa.rs:33-57 | quoting the stored challenge succeeds with the auth cookie and removes the challenge; repeating the request is refused with `IncorrectCredentials` |
| Lifecycle.LeadingZeroChallengeNeverConsumed | auth-service/src/routes/verify_2fa.rs:29-45 | a challenge whose code starts with '0' is never removed and every verify for that email fails |
| Lifecycle.MismatchKeepsChallenge | auth-service/src/routes/verify_2fa.rs:39-41 | a well-formed request that does not match the stored pair is refused with `IncorrectCredentials` and removes nothing |
| Lifecycle.SecondLoginSupersedesFirst | auth-service/src/services/data_stores/hashmap_two_fa_code_store.rs:21-29 | after a second 2FA login, quoting the first challenge fails and keeps the second, with `IncorrectCredentials` when the first code parses |
| Lifecycle.LoginThenVerify | auth-service/src/routes/verify_2fa.rs:22-57 | verifying with the id login answered and the code it mailed succeeds and consumes the challenge, when the code has no leading zero |
| Lifecycle.LogoutOfValidToken | auth-service/src/routes/logout.rs:15-42 | logout with a valid, unrevoked token in the jar succeeds and bans exactly that token |
| Lifecycle.LogoutRevokes | auth-service/src/routes/logout.rs:20-42 | after logout, `verify_token` refuses the token; logout with the old jar answers `InvalidToken`; logout with the returned jar answers `MissingToken` |
| Lifecycle.SignupOnFreshStore | auth-service/src/routes/signup.rs:8-47 | signup without 2FA on a fresh store answers 201 and leaves exactly that user stored |
| Lifecycle.LoginRegisteredUser | auth-service/src/routes/login.rs:13-44 | login of a user registered without 2FA answers 200 with the cookie of its token in the jar |
| Lifecycle.SignupThenLogin | auth-service/src/routes/signup.rs:8-47 | signup without 2FA, then login, on fresh stores answer 201 and 200, with the token's cookie in the jar |
| Lifecycle.VerifyLogoutVerify | auth-service/src/routes/logout.rs:11-43 | with that cookie, verify-token, logout and verify-token answer 200, 200 and 401 |
| Lifecycle.SignupLoginLogoutScenario | auth-service/src/routes/verify_token.rs:6-15 | signup of "a@x.com" with "password123" and no 2FA, login, verify-token, logout and verify-token answer 201, 200, 200, 200, 401 |
| AppService.AuthHost | app-service/src/main.rs:17-21 | the configured value when it is set and non-empty, "localhost" otherwise; never empty |
| AppService.AuthAddress | app-service/src/main.rs:16-32 | starts with "http://" exactly for localhost; is "http://localhost/auth" + path for localhost and "https://" + host + "/auth" + path otherwise; always ends in "/auth" + path |
| AppService.PrefixIgnored | app-service/src/main.rs:16-32 | the prefix argument does not affect the address |
| AppService.UnsetOrEmptyIsLocal | app-service/src/main.rs:17-19 | unset and empty both give "http://localhost/auth" + path |
| AppService.ExplicitLocalhostIsLocal | app-service/src/main.rs:17-27 | setting the variable to "localhost" gives the same plain-HTTP address as leaving it unset |

## Left out

- Postgres and Redis stores (`postgres_user_store.rs`, `redis_two_fa_code_store.rs`, `redis_banned_token_store.rs`): they are networked backends. The handlers' branches for `UnexpectedError` from a store are modelled, though the in-memory stores never take them.
- The Postgres user store answers `UserAlreadyExists` (`postgres_user_store.rs`, line 42), `UserNotFound` (lines 87 and 108) and `InvalidCredentials` (line 116) as the in-memory store does; its database failures become `UnexpectedError`.
- The Redis 2FA store differs from `HashMapTwoFACodeStore` in two ways. Its `get_code` turns every failed read, a connection failure included, into `LoginAttemptIdNotFound` (`redis_two_fa_code_store.rs`, lines 72-74). Its `remove_code` answers `Ok` for an absent key (lines 52-63), where the in-memory store answers `LoginAttemptIdNotFound`.
- Password hashing of the Postgres store: passwords are compared as plain strings, as in the in-memory stores.
- The TTL of revoked tokens and of challenges in Redis: the in-memory set and map keep entries for ever.
- The grammar of `validator::validate_email`: it is the `validEmail` parameter. The address examples that the e-mail tests expect to be rejected are therefore not modelled.
- JWT signing, the secret, and the header and signature format: they are the `encode` and `decode` parameters. So is the token's three-part shape, checked by the tests of `utils/auth.rs`.
- Auth.AuthClaims: does not model `chrono` failing in `checked_add_signed` near the limits of its date range. Only the `usize` cast of a negative expiry fails.
- Cookies.Remove: removes by name only. The path of the removal cookie (`RemovalCookie`, path "/") plays no part, and the expiring `Set-Cookie` header that `CookieJar::remove` sends to the browser is not modelled.
- The `RwLock` guards and `async` scheduling: each handler is modelled as one atomic step.
- The e-mail clients (`mock_email_client.rs`, `slack_message_client.rs`): sending is the `delivered` parameter.
- Axum routing, JSON (de)serialisation and the 422 answer for malformed bodies.
- The app service's handlers other than `get_auth_address`, its templates and its prefix middleware.
- `Secret` wrapping and tracing: secrets are modelled as their exposed strings.

=== FILE: api_errors.dfy ===
/** `AuthAPIError` and its conversion into an HTTP response. */
module ApiErrors {

  const OK: nat := 200
  const CREATED: nat := 201
  const PARTIAL_CONTENT: nat := 206
  const BAD_REQUEST: nat := 400
  const UNAUTHORIZED: nat := 401
  const PAYMENT_REQUIRED: nat := 402
  const CONFLICT: nat := 409
  const INTERNAL_SERVER_ERROR: nat := 500

  datatype AuthAPIError =
    | UserAlreadyExists
    | InvalidCredentials
    | IncorrectCredentials
    | MissingToken
    | InvalidToken
    | VerificationFailed
    | UnexpectedError

  /** The status and the JSON body `{"error": ...}` of an error response. */
  datatype ErrorResponse = ErrorResponse(status: nat, error: string)

  /** `into_response`: one total match from variant to status and message. */
  function IntoResponse(e: AuthAPIError): (r: ErrorResponse)
    ensures r.status == CONFLICT <==> e == UserAlreadyExists
    ensures r.status == BAD_REQUEST <==> e == InvalidCredentials || e == MissingToken
    ensures r.status == UNAUTHORIZED <==> e == InvalidToken || e == IncorrectCredentials
    ensures r.status == PAYMENT_REQUIRED <==> e == VerificationFailed
    ensures r.status == INTERNAL_SERVER_ERROR <==> e == UnexpectedError
    ensures r.status in {BAD_REQUEST, UNAUTHORIZED, PAYMENT_REQUIRED, CONFLICT, INTERNAL_SERVER_ERROR}
    ensures e == UserAlreadyExists ==> r.error == "User already exists"
    ensures e == InvalidCredentials ==> r.error == "Invalid credentials"
    ensures e == MissingToken ==> r.error == "Missing token"
    ensures e == InvalidToken ==> r.error == "Invalid token"
    ensures e == VerificationFailed ==> r.error == "Verification failed"
    ensures e == IncorrectCredentials ==> r.error == "Incorrect credentials"
    ensures e == UnexpectedError ==> r.error == "Unexpected error"
  {
    match e
    case UserAlreadyExists => ErrorResponse(CONFLICT, "User already exists")
    case InvalidCredentials => ErrorResponse(BAD_REQUEST, "Invalid credentials")
    case MissingToken => ErrorResponse(BAD_REQUEST, "Missing token")
    case InvalidToken => ErrorResponse(UNAUTHORIZED, "Invalid token")
    case VerificationFailed => ErrorResponse(PAYMENT_REQUIRED, "Verification failed")
    case IncorrectCredentials => ErrorResponse(UNAUTHORIZED, "Incorrect credentials")
    case UnexpectedError => ErrorResponse(INTERNAL_SERVER_ERROR, "Unexpected error")
  }

  /** The body's message tells every variant apart, even where two variants share a status. */
  lemma MessageIdentifiesVariant(a: AuthAPIError, b: AuthAPIError)
    ensures IntoResponse(a).error == IntoResponse(b).error <==> a == b
  {
  }
}

=== FILE: app_service.dfy ===
/**
 * `get_auth_address` of the app service: where browser links to the auth
 * service point. The `AUTH_SERVICE_IP` environment variable is passed in,
 * `None` when it is unset or unreadable.
 */
module AppService {
  import opened Wrappers

  const LOCALHOST := "localhost"
  const HTTP := "http://"
  const HTTPS := "https://"

  /** The auth host: the variable's value, or "localhost" when it is unset or empty. */
  function AuthHost(env: Option<string>): (host: string)
    ensures env.None? || env == Some("") ==> host == LOCALHOST
    ensures env.Some? && env.value != "" ==> host == env.value
    ensures host != ""
  {
    match env
    case None => LOCALHOST
    case Some(addr) => if addr == "" then LOCALHOST else addr
  }

  /**
   * The address of `path` on the auth service: plain HTTP for "localhost",
   * HTTPS for any other host, and always the "/auth" prefix; the caller's
   * own `prefix` argument plays no part.
   */
  function AuthAddress(env: Option<string>, prefix: string, path: string): (r: string)
    ensures |r| >= |HTTP| && (r[..|HTTP|] == HTTP <==> AuthHost(env) == LOCALHOST)
    ensures AuthHost(env) == LOCALHOST ==> r == HTTP + LOCALHOST + "/auth" + path
    ensures AuthHost(env) != LOCALHOST ==> r == HTTPS + env.value + "/auth" + path
    ensures |r| >= |"/auth" + path| && r[|r| - |"/auth" + path|..] == "/auth" + path
  {
    var host := AuthHost(env);
    var protocol := if host == LOCALHOST then HTTP else HTTPS;
    var r := protocol + host + "/auth" + path;
    assert r[|r| - |"/auth" + path|..] == "/auth" + path;
    assert r[..|HTTP|] == protocol[..|HTTP|];
    assert r[4] == protocol[4];
    r
  }

  /** The address depends on the environment and the path only. */
  lemma PrefixIgnored(env: Option<string>, prefix1: string, prefix2: string, path: string)
    ensures AuthAddress(env, prefix1, path) == AuthAddress(env, prefix2, path)
  {
  }

  /** Unset and empty configure the same local address. */
  lemma UnsetOrEmptyIsLocal(path: string)
    ensures AuthAddress(None, "/app", path) == AuthAddress(Some(""), "/app", path) == HTTP + LOCALHOST + "/auth" + path
  {
  }

  /** Naming "localhost" explicitly gives the same plain-HTTP address as leaving the variable unset. */
  lemma ExplicitLocalhostIsLocal(prefix: string, path: string)
    ensures AuthAddress(Some(LOCALHOST), prefix, path) == AuthAddress(None, prefix, path) == HTTP + LOCALHOST + "/auth" + path
  {
  }
}

=== FILE: auth.dfy ===
/**
 * The token service of `utils/auth.rs`: claims construction, the auth cookie,
 * and revocation-aware validation. Signing and decoding belong to the
 * `jsonwebtoken` crate and reading the clock to `chrono`; both are supplied
 * from outside through `Config` and a `now` argument (seconds since the epoch).
 */
module Auth {
  import opened Wrappers
  import opened Emails
  import opened Cookies
  import opened DataStores
  import opened BannedTokenStores

  const JWT_COOKIE_NAME := "jwt"
  const TOKEN_TTL_SECONDS: int := 600

  /** The signed payload: the subject's email and the expiry, a `usize` timestamp. */
  datatype Claims = Claims(sub: string, exp: nat)

  /**
   * The collaborators the service is configured with: the address validator,
   * and the encoder and decoder of tokens under the process-wide secret. The
   * decoder is given the current time, because it also checks the expiry.
   */
  datatype Config = Config(
    validEmail: string -> bool,
    encode: Claims -> Option<string>,
    decode: (string, int) -> Option<Claims>)

  /**
   * The law the signing pair keeps: a token the encoder issued for `claims`
   * decodes to those claims at any time before their expiry.
   */
  predicate DecodesBeforeExpiry(cfg: Config, claims: Claims, now: int) {
    now < claims.exp && cfg.encode(claims).Some? ==> cfg.decode(cfg.encode(claims).value, now) == Some(claims)
  }

  datatype TokenError =
    | TokenBanned
    | BannedStoreFailure(cause: BannedTokenStoreError)
    | DecodeFailed
    | ExpCastFailed(exp: int)
    | EncodeFailed

  /** The claims `generate_auth_token` signs; a negative expiry fails the cast to `usize`. */
  function AuthClaims(email: Email, now: int): (r: Result<Claims, TokenError>)
    ensures r.Ok? <==> now + TOKEN_TTL_SECONDS >= 0
    ensures r.Ok? ==> r.value.sub == email.value && r.value.exp == now + TOKEN_TTL_SECONDS
  {
    var exp := now + TOKEN_TTL_SECONDS;
    if exp < 0 then Err(ExpCastFailed(exp)) else Ok(Claims(email.value, exp))
  }

  /** `generate_auth_token`: build the claims, then sign them (`create_token`). */
  function GenerateAuthToken(cfg: Config, email: Email, now: int): (r: Result<string, TokenError>)
    ensures r.Ok? <==> now + TOKEN_TTL_SECONDS >= 0 && cfg.encode(Claims(email.value, now + TOKEN_TTL_SECONDS)).Some?
    ensures r.Ok? ==> cfg.encode(Claims(email.value, now + TOKEN_TTL_SECONDS)) == Some(r.value)
  {
    match AuthClaims(email, now)
    case Err(e) => Err(e)
    case Ok(claims) =>
      match cfg.encode(claims)
      case None => Err(EncodeFailed)
      case Some(token) => Ok(token)
  }

  /** `create_auth_cookie`: the token as the value of an HTTP-only, same-site-lax cookie on path "/". */
  function CreateAuthCookie(token: string): (c: Cookie)
    ensures c.name == JWT_COOKIE_NAME && c.value == token
    ensures c.path == Some("/") && c.httpOnly == Some(true) && c.sameSite == Some(Lax)
  {
    Cookie(JWT_COOKIE_NAME, token, Some("/"), Some(true), Some(Lax))
  }

  /** `generate_auth_cookie`. */
  function GenerateAuthCookie(cfg: Config, email: Email, now: int): (r: Result<Cookie, TokenError>)
    ensures r.Ok? <==> GenerateAuthToken(cfg, email, now).Ok?
    ensures r.Ok? ==> r.value == CreateAuthCookie(GenerateAuthToken(cfg, email, now).value)
    ensures r.Err? ==> r.error == GenerateAuthToken(cfg, email, now).error
  {
    match GenerateAuthToken(cfg, email, now)
    case Err(e) => Err(e)
    case Ok(token) => Ok(CreateAuthCookie(token))
  }

  /** What `validate_token` answers for a given revocation set. */
  function ValidateTokenResult(cfg: Config, banned: set<string>, token: string, now: int): (r: Result<Claims, TokenError>)
    ensures token in banned ==> r == Err(TokenBanned)
    ensures token !in banned ==> (r.Ok? <==> cfg.decode(token, now).Some?)
    ensures r.Ok? ==> Some(r.value) == cfg.decode(token, now)
  {
    match CheckBannedResult(banned, token)
    case Err(e) => Err(BannedStoreFailure(e))
    case Ok(isBanned) =>
      if isBanned then Err(TokenBanned)
      else match cfg.decode(token, now)
        case None => Err(DecodeFailed)
        case Some(claims) => Ok(claims)
  }

  /** `validate_token`: asks the revocation set first and decodes only a token it does not hold. */
  method ValidateToken(cfg: Config, store: HashSetBannedTokenStore, token: string, now: int)
    returns (r: Result<Claims, TokenError>)
    ensures r == ValidateTokenResult(cfg, store.bannedTokens, token, now)
  {
    var checked := store.CheckBannedToken(token);
    match checked
    case Err(e) =>
      r := Err(BannedStoreFailure(e));
    case Ok(isBanned) =>
      if isBanned {
        r := Err(TokenBanned);
      } else {
        match cfg.decode(token, now)
        case None =>
          r := Err(DecodeFailed);
        case Some(claims) =>
          r := Ok(claims);
      }
  }

  /** A revoked token fails whatever the decoder would say of it: the decoder is not consulted. */
  lemma RevokedTokenRejectedWithoutDecoding(cfg1: Config, cfg2: Config, banned: set<string>, token: string, now: int)
    requires token in banned
    ensures ValidateTokenResult(cfg1, banned, token, now) == ValidateTokenResult(cfg2, banned, token, now) == Err(TokenBanned)
  {
  }

  /** The cookie issued for an email carries a token whose signed claims name that email and expire TTL seconds after `now`. */
  lemma IssuedCookieCarriesClaims(cfg: Config, email: Email, now: int)
    requires GenerateAuthCookie(cfg, email, now).Ok?
    ensures var c := GenerateAuthCookie(cfg, email, now).value;
      c.name == JWT_COOKIE_NAME && cfg.encode(Claims(email.value, now + TOKEN_TTL_SECONDS)) == Some(c.value)
  {
  }
}

=== FILE: banned_token_store.dfy ===
/** `HashSetBannedTokenStore`: the revocation set, a set of raw token strings updated in place. */
module BannedTokenStores {
  import opened Wrappers
  import opened DataStores

  /** What `check_banned_token` answers for a given set. */
  function CheckBannedResult(banned: set<string>, token: string): Result<bool, BannedTokenStoreError> {
    Ok(token in banned)
  }

  /** What `add_banned_token` answers, and the set it leaves. */
  function AddBannedResult(banned: set<string>, token: string): (Result<(), BannedTokenStoreError>, set<string>) {
    (Ok(()), banned + {token})
  }

  class HashSetBannedTokenStore {
    var bannedTokens: set<string>

    constructor ()
      ensures bannedTokens == {}
    {
      bannedTokens := {};
    }

    /** `add_banned_token`: a set insert that always succeeds. */
    method AddBannedToken(token: string) returns (r: Result<(), BannedTokenStoreError>)
      modifies this
      ensures r == Ok(())
      ensures bannedTokens == old(bannedTokens) + {token}
      ensures (r, bannedTokens) == AddBannedResult(old(bannedTokens), token)
    {
      bannedTokens := bannedTokens + {token};
      r := Ok(());
    }

    /** `check_banned_token`: whether the token is in the set; never an error. */
    method CheckBannedToken(token: string) returns (r: Result<bool, BannedTokenStoreError>)
      ensures r.Ok?
      ensures r.value <==> token in bannedTokens
      ensures r == CheckBannedResult(bannedTokens, token)
    {
      r := Ok(token in bannedTokens);
    }
  }

  /** Banning is idempotent, bans the token itself and no other token. */
  lemma BanEffect(banned: set<string>, token: string, other: string)
    requires other != token
    ensures banned + {token} + {token} == banned + {token}
    ensures token in banned + {token}
    ensures other in banned + {token} <==> other in banned
  {
  }

  /** The unit tests: a banned token is reported, an unknown one is not, on a fresh store and after adds. */
  method UnitTestScenario()
    returns (before: Result<bool, BannedTokenStoreError>, first: Result<bool, BannedTokenStoreError>,
             second: Result<bool, BannedTokenStoreError>, after: Result<bool, BannedTokenStoreError>)
    ensures before == Ok(false) && after == Ok(false)
    ensures first == Ok(true) && second == Ok(true)
  {
    var store := new HashSetBannedTokenStore();
    before := store.CheckBannedToken("not_banned_token");
    var a := store.AddBannedToken("banned_token1");
    a := store.AddBannedToken("banned_token2");
    first := store.CheckBannedToken("banned_token1");
    second := store.CheckBannedToken("banned_token2");
    after := store.CheckBannedToken("not_banned_token");
  }
}

=== FILE: cookies.dfy ===
/**
 * The slice of `axum_extra`'s cookies the handlers use: a cookie with the
 * attributes the service sets, and a jar that holds at most one cookie per
 * name (`add` replaces, `get` finds by name, `remove` deletes by name).
 */
module Cookies {
  import opened Wrappers

  /** The `SameSite` attribute; `Unrestricted` stands for `SameSite=None`. */
  datatype SameSite = Strict | Lax | Unrestricted

  datatype Cookie = Cookie(
    name: string,
    value: string,
    path: Option<string>,
    httpOnly: Option<bool>,
    sameSite: Option<SameSite>)

  datatype CookieJar = CookieJar(cookies: map<string, Cookie>)

  const EmptyJar := CookieJar(map[])

  /** `Cookie::from(name)`: a cookie with that name, an empty value and no attributes. */
  function Named(name: string): Cookie {
    Cookie(name, "", None, None, None)
  }

  /** Every cookie sits under its own name, as a jar built by `add` keeps them. */
  predicate KeyedByName(jar: CookieJar) {
    forall n | n in jar.cookies :: jar.cookies[n].name == n
  }

  /** `CookieJar::add`: the cookie replaces any of the same name; the others stay. */
  function Add(jar: CookieJar, cookie: Cookie): (r: CookieJar)
    ensures cookie.name in r.cookies && r.cookies[cookie.name] == cookie
    ensures forall n | n != cookie.name :: (n in r.cookies <==> n in jar.cookies)
    ensures forall n | n != cookie.name && n in jar.cookies :: r.cookies[n] == jar.cookies[n]
    ensures KeyedByName(jar) ==> KeyedByName(r)
  {
    CookieJar(jar.cookies[cookie.name := cookie])
  }

  /** `CookieJar::get`: in a jar keyed by name, the cookie found carries the name asked for. */
  function Get(jar: CookieJar, name: string): (r: Option<Cookie>)
    ensures r.Some? <==> name in jar.cookies
    ensures KeyedByName(jar) && r.Some? ==> r.value.name == name
  {
    if name in jar.cookies then Some(jar.cookies[name]) else None
  }

  /** `CookieJar::remove`: the cookie of that name is no longer in the jar; the others stay. */
  function Remove(jar: CookieJar, cookie: Cookie): (r: CookieJar)
    ensures cookie.name !in r.cookies
    ensures forall n | n != cookie.name :: (n in r.cookies <==> n in jar.cookies)
    ensures forall n | n != cookie.name && n in jar.cookies :: r.cookies[n] == jar.cookies[n]
    ensures KeyedByName(jar) ==> KeyedByName(r)
  {
    CookieJar(jar.cookies - {cookie.name})
  }

  /** A cookie added is the one found under its name; a removed name is found no more; other names are untouched. */
  lemma JarLaws(jar: CookieJar, cookie: Cookie, other: string)
    requires other != cookie.name
    ensures Get(Add(jar, cookie), cookie.name) == Some(cookie)
    ensures Get(Remove(jar, cookie), cookie.name) == None
    ensures Get(Add(jar, cookie), other) == Get(jar, other)
    ensures Get(Remove(jar, cookie), other) == Get(jar, other)
  {
  }
}

=== FILE: data_stores.dfy ===
/**
 * The records and error enums shared by the store interfaces (`UserStore`,
 * `BannedTokenStore`, `TwoFACodeStore`). The interfaces themselves are the
 * classes in the store modules: operations that take `&mut self` there have a
 * `modifies` clause, operations that take `&self` have none.
 */
module DataStores {
  import opened Emails
  import opened Passwords
  import opened LoginAttemptIds
  import opened TwoFACodes

  datatype User = User(email: Email, password: Password, requiresTwoFA: bool)

  /** A pending 2FA challenge: the attempt id and the code sent to the user. */
  type Challenge = (LoginAttemptId, TwoFACode)

  /** The `Report` an unexpected error carries is kept as its message. */
  datatype UserStoreError =
    | UserAlreadyExists
    | UserNotFound
    | InvalidCredentials
    | UnexpectedError(cause: string)

  datatype BannedTokenStoreError =
    | TokenIsBanned
    | UnexpectedError(cause: string)

  datatype TwoFACodeStoreError =
    | LoginAttemptIdNotFound
    | UnexpectedError(cause: string)

  /** `PartialEq for UserStoreError`: the variants are compared, the payload of `UnexpectedError` is not. */
  predicate SameUserStoreError(a: UserStoreError, b: UserStoreError)
    ensures SameUserStoreError(a, b) <==> a == b || (a.UnexpectedError? && b.UnexpectedError?)
  {
    match (a, b)
    case (UserAlreadyExists, UserAlreadyExists) => true
    case (UserNotFound, UserNotFound) => true
    case (InvalidCredentials, InvalidCredentials) => true
    case (UnexpectedError(_), UnexpectedError(_)) => true
    case _ => false
  }

  /** `PartialEq for TwoFACodeStoreError`: the variants are compared, the payload is not. */
  predicate SameTwoFACodeStoreError(a: TwoFACodeStoreError, b: TwoFACodeStoreError)
    ensures SameTwoFACodeStoreError(a, b) <==> a == b || (a.UnexpectedError? && b.UnexpectedError?)
  {
    match (a, b)
    case (LoginAttemptIdNotFound, LoginAttemptIdNotFound) => true
    case (UnexpectedError(_), UnexpectedError(_)) => true
    case _ => false
  }

  /** The user-store equality is an equivalence relation, as `PartialEq` expects. */
  lemma UserStoreErrorEquality(a: UserStoreError, b: UserStoreError, c: UserStoreError)
    ensures SameUserStoreError(a, a)
    ensures SameUserStoreError(a, b) ==> SameUserStoreError(b, a)
    ensures SameUserStoreError(a, b) && SameUserStoreError(b, c) ==> SameUserStoreError(a, c)
  {
  }

  /** The same for the 2FA store's errors. */
  lemma TwoFACodeStoreErrorEquality(a: TwoFACodeStoreError, b: TwoFACodeStoreError, c: TwoFACodeStoreError)
    ensures SameTwoFACodeStoreError(a, a)
    ensures SameTwoFACodeStoreError(a, b) ==> SameTwoFACodeStoreError(b, a)
    ensures SameTwoFACodeStoreError(a, b) && SameTwoFACodeStoreError(b, c) ==> SameTwoFACodeStoreError(a, c)
  {
  }
}

=== FILE: emails.dfy ===
/** The `Email` value type. The address grammar belongs to the `validator` crate and is a parameter here. */
module Emails {
  import opened Wrappers

  /** Wraps the address exactly as given; `as_ref` is the field `value`. */
  datatype Email = Email(value: string)

  datatype EmailError = InvalidEmail

  /** `Email::parse`: the validator decides; the address is kept without normalisation. */
  function Parse(validEmail: string -> bool, address: string): (r: Result<Email, EmailError>)
    ensures r.Ok? <==> validEmail(address)
    ensures r.Ok? ==> r.value.value == address
    ensures r.Err? ==> r.error == InvalidEmail
  {
    if !validEmail(address) then Err(InvalidEmail) else Ok(Email(address))
  }
}

=== FILE: hashmap_user_store.dfy ===
/** `HashMapUserStore`: users keyed by email in a map updated in place. */
module HashMapUserStores {
  import opened Wrappers
  import opened Emails
  import opened Passwords
  import opened DataStores

  /** What `get_user` answers for a given map. */
  function GetUserResult(users: map<Email, User>, email: Email): Result<User, UserStoreError> {
    if email in users then Ok(users[email]) else Err(UserNotFound)
  }

  /** What `add_user` answers, and the map it leaves. */
  function AddUserResult(users: map<Email, User>, user: User): (Result<(), UserStoreError>, map<Email, User>) {
    if user.email in users then (Err(UserAlreadyExists), users) else (Ok(()), users[user.email := user])
  }

  /** What `validate_user` answers for a given map. */
  function ValidateUserResult(users: map<Email, User>, email: Email, password: Password): (r: Result<(), UserStoreError>)
    ensures r == Ok(()) <==> email in users && users[email].password == password
    ensures r == Err(InvalidCredentials) <==> email in users && users[email].password != password
    ensures r == Err(UserNotFound) <==> email !in users
  {
    match GetUserResult(users, email)
    case Ok(user) => if user.password == password then Ok(()) else Err(InvalidCredentials)
    case Err(e) => Err(e)
  }

  /** Every user is filed under its own email. */
  ghost predicate KeyedByEmail(users: map<Email, User>) {
    forall e | e in users :: users[e].email == e
  }

  class HashMapUserStore {
    var users: map<Email, User>

    ghost predicate Valid()
      reads this
    {
      KeyedByEmail(users)
    }

    /** `HashMapUserStore::new` / `default`. */
    constructor ()
      ensures Valid() && users == map[]
    {
      users := map[];
    }

    /** `add_user`: refuses a known email, otherwise files the user under its email. */
    method AddUser(user: User) returns (r: Result<(), UserStoreError>)
      requires Valid()
      modifies this
      ensures Valid()
      ensures user.email in old(users) ==> r == Err(UserAlreadyExists) && users == old(users)
      ensures user.email !in old(users) ==> r == Ok(()) && users == old(users)[user.email := user]
      ensures (r, users) == AddUserResult(old(users), user)
    {
      if user.email in users {
        r := Err(UserAlreadyExists);
      } else {
        users := users[user.email := user];
        r := Ok(());
      }
    }

    /** `get_user`: the stored user, whose email is the one asked for, or `UserNotFound`. */
    method GetUser(email: Email) returns (r: Result<User, UserStoreError>)
      requires Valid()
      ensures r == GetUserResult(users, email)
      ensures r.Ok? ==> r.value.email == email
    {
      if email in users {
        r := Ok(users[email]);
      } else {
        r := Err(UserNotFound);
      }
    }

    /** `validate_user`: looks the user up and compares the stored password with the candidate. */
    method ValidateUser(email: Email, password: Password) returns (r: Result<(), UserStoreError>)
      requires Valid()
      ensures r == ValidateUserResult(users, email, password)
    {
      var found := GetUser(email);
      match found
      case Ok(user) =>
        if user.password == password {
          r := Ok(());
        } else {
          r := Err(InvalidCredentials);
        }
      case Err(e) =>
        r := Err(e);
    }
  }

  /** Adding a user under a new email makes `get_user` return it and `validate_user` accept its password. */
  lemma AddThenGet(users: map<Email, User>, user: User)
    requires user.email !in users
    ensures GetUserResult(users[user.email := user], user.email) == Ok(user)
    ensures ValidateUserResult(users[user.email := user], user.email, user.password) == Ok(())
  {
  }

  /** Adding a user leaves every other email's answer unchanged. */
  lemma AddLeavesOthers(users: map<Email, User>, user: User, other: Email)
    requires other != user.email
    ensures GetUserResult(users[user.email := user], other) == GetUserResult(users, other)
  {
  }

  /** The unit tests' steps and expectations, as a client of the store: add, re-add, get, and the three validation outcomes. */
  method UnitTestScenario(email: Email, other: Email, password: Password, wrong: Password)
    returns (added: Result<(), UserStoreError>, addedAgain: Result<(), UserStoreError>,
             found: Result<User, UserStoreError>, missing: Result<User, UserStoreError>,
             valid: Result<(), UserStoreError>, invalid: Result<(), UserStoreError>, unknown: Result<(), UserStoreError>)
    requires email != other && password != wrong
    ensures added == Ok(()) && addedAgain == Err(UserAlreadyExists)
    ensures found == Ok(User(email, password, false)) && missing == Err(UserNotFound)
    ensures valid == Ok(()) && invalid == Err(InvalidCredentials) && unknown == Err(UserNotFound)
  {
    var store := new HashMapUserStore();
    var user := User(email, password, false);
    added := store.AddUser(user);
    addedAgain := store.AddUser(user);
    found := store.GetUser(email);
    missing := store.GetUser(other);
    valid := store.ValidateUser(email, password);
    invalid := store.ValidateUser(email, wrong);
    unknown := store.ValidateUser(other, password);
  }
}

=== FILE: legacy_user_store.dfy ===
/**
 * The older `HashmapUserStore`: users keyed by their email string, passwords
 * kept as plain strings, and an error enum of its own whose `UnexpectedError`
 * carries nothing (so its derived equality is plain structural equality).
 */
module LegacyUserStores {
  import opened Wrappers

  datatype LegacyUser = LegacyUser(email: string, password: string, requiresTwoFA: bool)

  datatype LegacyUserStoreError = UserAlreadyExists | UserNotFound | InvalidCredentials | UnexpectedError

  function GetUserResult(users: map<string, LegacyUser>, email: string): Result<LegacyUser, LegacyUserStoreError> {
    if email in users then Ok(users[email]) else Err(UserNotFound)
  }

  function ValidateUserResult(users: map<string, LegacyUser>, email: string, password: string): (r: Result<(), LegacyUserStoreError>)
    ensures r == Ok(()) <==> email in users && users[email].password == password
    ensures r == Err(InvalidCredentials) <==> email in users && users[email].password != password
    ensures r == Err(UserNotFound) <==> email !in users
  {
    match GetUserResult(users, email)
    case Ok(user) => if user.password == password then Ok(()) else Err(InvalidCredentials)
    case Err(e) => Err(e)
  }

  ghost predicate KeyedByEmail(users: map<string, LegacyUser>) {
    forall e | e in users :: users[e].email == e
  }

  class HashmapUserStore {
    var users: map<string, LegacyUser>

    ghost predicate Valid()
      reads this
    {
      KeyedByEmail(users)
    }

    constructor ()
      ensures Valid() && users == map[]
    {
      users := map[];
    }

    /** `add_user`: a duplicate email is refused and the map is unchanged; a fresh one is inserted. */
    method AddUser(user: LegacyUser) returns (r: Result<(), LegacyUserStoreError>)
      requires Valid()
      modifies this
      ensures Valid()
      ensures user.email in old(users) ==> r == Err(UserAlreadyExists) && users == old(users)
      ensures user.email !in old(users) ==> r == Ok(()) && users == old(users)[user.email := user]
    {
      if user.email in users {
        r := Err(UserAlreadyExists);
      } else {
        users := users[user.email := user];
        r := Ok(());
      }
    }

    /** `get_user`: the stored user, or `UserNotFound`. */
    method GetUser(email: string) returns (r: Result<LegacyUser, LegacyUserStoreError>)
      requires Valid()
      ensures r == GetUserResult(users, email)
      ensures r.Ok? ==> r.value.email == email
    {
      if email in users {
        r := Ok(users[email]);
      } else {
        r := Err(UserNotFound);
      }
    }

    /** `validate_user`: string comparison of the stored password with the candidate. */
    method ValidateUser(email: string, password: string) returns (r: Result<(), LegacyUserStoreError>)
      requires Valid()
      ensures r == ValidateUserResult(users, email, password)
    {
      var found := GetUser(email);
      match found
      case Ok(user) =>
        if user.password == password {
          r := Ok(());
        } else {
          r := Err(InvalidCredentials);
        }
      case Err(e) =>
        r := Err(e);
    }
  }

  lemma AddThenGet(users: map<string, LegacyUser>, user: LegacyUser)
    requires user.email !in users
    ensures GetUserResult(users[user.email := user], user.email) == Ok(user)
    ensures ValidateUserResult(users[user.email := user], user.email, user.password) == Ok(())
  {
  }

  /** The unit tests' steps and expectations, as a client of the store. */
  method UnitTestScenario()
    returns (added: Result<(), LegacyUserStoreError>, addedAgain: Result<(), LegacyUserStoreError>,
             found: Result<LegacyUser, LegacyUserStoreError>, missing: Result<LegacyUser, LegacyUserStoreError>,
             valid: Result<(), LegacyUserStoreError>, invalid: Result<(), LegacyUserStoreError>,
             unknown: Result<(), LegacyUserStoreError>)
    ensures added == Ok(()) && addedAgain == Err(UserAlreadyExists)
    ensures found == Ok(LegacyUser("test@example.com", "password", false)) && missing == Err(UserNotFound)
    ensures valid == Ok(()) && invalid == Err(InvalidCredentials) && unknown == Err(UserNotFound)
  {
    var store := new HashmapUserStore();
    var user := LegacyUser("test@example.com", "password", false);
    added := store.AddUser(user);
    addedAgain := store.AddUser(user);
    found := store.GetUser("test@example.com");
    missing := store.GetUser("not_found@example.com");
    valid := store.ValidateUser("test@example.com", "password");
    invalid := store.ValidateUser("test@example.com", "wrong_password");
    unknown := store.ValidateUser("not_found@example.com", "password");
  }
}

=== FILE: lifecycle.dfy ===
/**
 * Properties of whole request sequences: each lemma threads the stores one
 * handler leaves into the next handler's call.
 */
module Lifecycle {
  import opened Wrappers
  import opened Emails
  import opened Passwords
  import LoginAttemptIds
  import TwoFACodes
  import Uuids
  import DataStores
  import opened HashMapUserStores
  import opened TwoFACodeStores
  import opened BannedTokenStores
  import opened Cookies
  import opened ApiErrors
  import opened Auth
  import opened SignupRoute
  import opened LoginRoute
  import opened Verify2FARoute
  import opened LogoutRoute
  import opened VerifyTokenRoute

  /** After a successful signup the user is stored under its email as requested; a second signup of that email conflicts. */
  lemma SignupThenSignupAgain(cfg: Config, users: map<Email, DataStores.User>, request: SignupRequest, again: SignupRequest)
    requires SignupResult(cfg, users, request).0.Ok?
    requires again.email == request.email && Utf8Length(again.password) >= MIN_LENGTH
    ensures var users' := SignupResult(cfg, users, request).1;
      GetUserResult(users', Email(request.email)) == Ok(RequestedUser(request)) &&
      SignupResult(cfg, users', again) == (Err(UserAlreadyExists), users')
  {
    var users' := SignupResult(cfg, users, request).1;
    assert Email(again.email) in users';
  }

  /** Login of a user without 2FA: 200, a cookie whose token signs (email, now + TTL), and no challenge or mail. */
  lemma LoginWithoutTwoFA(
    cfg: Config, users: map<Email, DataStores.User>, codes: map<Email, DataStores.Challenge>,
    jar: CookieJar, request: LoginRequest, now: int,
    freshId: Uuids.Uuid, rolls: TwoFACodes.SixDigits, delivered: bool)
    requires KeyedByEmail(users)
    requires cfg.validEmail(request.email) && Utf8Length(request.password) >= MIN_LENGTH
    requires Email(request.email) in users
    requires users[Email(request.email)].password == Password(request.password)
    requires !users[Email(request.email)].requiresTwoFA
    requires GenerateAuthToken(cfg, Email(request.email), now).Ok?
    ensures var out := LoginResult(cfg, users, codes, jar, request, now, freshId, rolls, delivered);
      out.codes == codes && out.sent == None &&
      out.result.Ok? && out.result.value.status == OK && out.result.value.body == RegularAuth &&
      Get(out.result.value.jar, JWT_COOKIE_NAME).Some? &&
      cfg.encode(Claims(request.email, now + TOKEN_TTL_SECONDS)) ==
        Some(Get(out.result.value.jar, JWT_COOKIE_NAME).value.value)
  {
    var email := Email(request.email);
    assert users[email].email == email;
    assert Passwords.Parse(request.password) == Ok(Password(request.password));
    var token := GenerateAuthToken(cfg, email, now).value;
    JarLaws(jar, CreateAuthCookie(token), "");
  }

  /** The sent code and the answered id are those of the stored challenge, which also replaces any earlier one. */
  lemma LoginWithTwoFA(
    cfg: Config, users: map<Email, DataStores.User>, codes: map<Email, DataStores.Challenge>,
    jar: CookieJar, request: LoginRequest, now: int,
    freshId: Uuids.Uuid, rolls: TwoFACodes.SixDigits, delivered: bool)
    requires KeyedByEmail(users)
    requires cfg.validEmail(request.email) && Utf8Length(request.password) >= MIN_LENGTH
    requires Email(request.email) in users
    requires users[Email(request.email)].password == Password(request.password)
    requires users[Email(request.email)].requiresTwoFA
    ensures var out := LoginResult(cfg, users, codes, jar, request, now, freshId, rolls, delivered);
      var challenge := (LoginAttemptIds.Default(freshId), TwoFACodes.Default(rolls));
      out.codes == codes[Email(request.email) := challenge] &&
      out.sent == Some(Notification(Email(request.email), TWO_FA_SUBJECT, challenge.1.value)) &&
      (delivered <==> out.result.Ok?) &&
      (!delivered ==> out.result == Err(UnexpectedError)) &&
      (delivered ==> out.result.value == LoginReply(jar, PARTIAL_CONTENT, TwoFactorAuth(TWO_FA_REQUIRED, challenge.0.value)))
  {
    var email := Email(request.email);
    assert users[email].email == email;
    assert Passwords.Parse(request.password) == Ok(Password(request.password));
  }

  /** A request quoting the challenge of `Default(freshId)` and `Default(rolls)` for a valid address. */
  function ChallengeRequest(email: string, freshId: Uuids.Uuid, rolls: TwoFACodes.SixDigits): Verify2FARequest {
    Verify2FARequest(email, LoginAttemptIds.Default(freshId).value, TwoFACodes.Default(rolls).value)
  }

  /**
   * The exact challenge, quoted back, is accepted once: the first verify answers 200
   * with the auth cookie and removes it, the identical second verify is refused.
   */
  lemma VerifySucceedsOnce(
    cfg: Config, codes: map<Email, DataStores.Challenge>, jar: CookieJar, email: string, now: int, later: int,
    freshId: Uuids.Uuid, rolls: TwoFACodes.SixDigits)
    requires cfg.validEmail(email)
    requires rolls[0] != 0
    requires Email(email) in codes && codes[Email(email)] == (LoginAttemptIds.Default(freshId), TwoFACodes.Default(rolls))
    requires GenerateAuthToken(cfg, Email(email), now).Ok?
    ensures var request := ChallengeRequest(email, freshId, rolls);
      var (first, codes') := Verify2FAResult(cfg, codes, jar, request, now);
      codes' == codes - {Email(email)} &&
      first.Ok? && first.value.status == OK &&
      Get(first.value.jar, JWT_COOKIE_NAME) == Some(CreateAuthCookie(GenerateAuthToken(cfg, Email(email), now).value)) &&
      Verify2FAResult(cfg, codes', first.value.jar, request, later) == (Err(IncorrectCredentials), codes')
  {
    var request := ChallengeRequest(email, freshId, rolls);
    TwoFACodes.DefaultParsesIffNoLeadingZero(rolls);
    var codes' := codes - {Email(email)};
    var token := GenerateAuthToken(cfg, Email(email), now).value;
    JarLaws(jar, CreateAuthCookie(token), "");
    assert GetCodeResult(codes', Email(email)).Err?;
  }

  /** A challenge whose code starts with '0' is never consumed: no request's code both parses and equals it. */
  lemma LeadingZeroChallengeNeverConsumed(
    cfg: Config, codes: map<Email, DataStores.Challenge>, jar: CookieJar, request: Verify2FARequest, now: int,
    email: Email, freshId: Uuids.Uuid, rolls: TwoFACodes.SixDigits)
    requires rolls[0] == 0
    requires email in codes && codes[email] == (LoginAttemptIds.Default(freshId), TwoFACodes.Default(rolls))
    ensures Email(request.email) == email ==> Verify2FAResult(cfg, codes, jar, request, now).1 == codes
    ensures Email(request.email) == email ==> Verify2FAResult(cfg, codes, jar, request, now).0.Err?
  {
    TwoFACodes.DefaultParsesIffNoLeadingZero(rolls);
    var parsed := ParsedChallenge(cfg, request);
    if parsed.Some? && Email(request.email) == email {
      var (_, _, code) := parsed.value;
      assert TwoFACodes.Parse(request.twoFACode) == Ok(code);
      assert code != TwoFACodes.Default(rolls);
    }
  }

  /** A verify that does not quote the stored challenge exactly is refused and leaves the challenge in place. */
  lemma MismatchKeepsChallenge(
    cfg: Config, codes: map<Email, DataStores.Challenge>, jar: CookieJar, request: Verify2FARequest, now: int)
    requires ParsedChallenge(cfg, request).Some?
    requires var (email, id, code) := ParsedChallenge(cfg, request).value;
      email in codes && codes[email] != (id, code)
    ensures Verify2FAResult(cfg, codes, jar, request, now) == (Err(IncorrectCredentials), codes)
  {
  }

  /** A second 2FA login replaces the first challenge, so quoting the first one no longer succeeds. */
  lemma SecondLoginSupersedesFirst(
    cfg: Config, users: map<Email, DataStores.User>, codes: map<Email, DataStores.Challenge>,
    jar: CookieJar, request: LoginRequest, now: int,
    id1: Uuids.Uuid, rolls1: TwoFACodes.SixDigits, id2: Uuids.Uuid, rolls2: TwoFACodes.SixDigits, delivered: bool)
    requires KeyedByEmail(users)
    requires cfg.validEmail(request.email) && Utf8Length(request.password) >= MIN_LENGTH
    requires Email(request.email) in users
    requires users[Email(request.email)].password == Password(request.password)
    requires users[Email(request.email)].requiresTwoFA
    requires LoginAttemptIds.Default(id1) != LoginAttemptIds.Default(id2) ||
      TwoFACodes.Default(rolls1) != TwoFACodes.Default(rolls2)
    ensures var codes1 := LoginResult(cfg, users, codes, jar, request, now, id1, rolls1, delivered).codes;
      var codes2 := LoginResult(cfg, users, codes1, jar, request, now, id2, rolls2, delivered).codes;
      var stale := Verify2FAResult(cfg, codes2, jar, ChallengeRequest(request.email, id1, rolls1), now);
      stale.1 == codes2 && stale.0.Err? &&
      (rolls1[0] != 0 ==> stale.0 == Err(IncorrectCredentials))
  {
    LoginWithTwoFA(cfg, users, codes, jar, request, now, id1, rolls1, delivered);
    var codes1 := LoginResult(cfg, users, codes, jar, request, now, id1, rolls1, delivered).codes;
    LoginWithTwoFA(cfg, users, codes1, jar, request, now, id2, rolls2, delivered);
    TwoFACodes.DefaultParsesIffNoLeadingZero(rolls1);
  }

  /** Login with 2FA followed by a verify quoting the answered id and the mailed code issues the auth cookie. */
  lemma LoginThenVerify(
    cfg: Config, users: map<Email, DataStores.User>, codes: map<Email, DataStores.Challenge>,
    jar: CookieJar, request: LoginRequest, now: int, later: int,
    freshId: Uuids.Uuid, rolls: TwoFACodes.SixDigits)
    requires KeyedByEmail(users)
    requires cfg.validEmail(request.email) && Utf8Length(request.password) >= MIN_LENGTH
    requires Email(request.email) in users
    requires users[Email(request.email)].password == Password(request.password)
    requires users[Email(request.email)].requiresTwoFA
    requires rolls[0] != 0
    requires GenerateAuthToken(cfg, Email(request.email), later).Ok?
    ensures var out := LoginResult(cfg, users, codes, jar, request, now, freshId, rolls, true);
      out.result.Ok? && out.result.value.body.TwoFactorAuth? && out.sent.Some? &&
      var answer := Verify2FARequest(request.email, out.result.value.body.loginAttemptId, out.sent.value.content);
      var (verified, codes') := Verify2FAResult(cfg, out.codes, out.result.value.jar, answer, later);
      verified.Ok? && Email(request.email) !in codes'
  {
    LoginWithTwoFA(cfg, users, codes, jar, request, now, freshId, rolls, true);
    var codes1 := LoginResult(cfg, users, codes, jar, request, now, freshId, rolls, true).codes;
    VerifySucceedsOnce(cfg, codes1, jar, request.email, later, later, freshId, rolls);
  }

  /**
   * After a logout the token is revoked: `verify_token` refuses it, a logout
   * replaying the old jar is refused as an invalid token, and one with the
   * jar logout returned finds no token at all.
   */
  lemma LogoutRevokes(cfg: Config, banned: set<string>, jar: CookieJar, now: int, later: int)
    requires LogoutResult(cfg, banned, jar, now).0.Ok?
    ensures var (reply, banned') := LogoutResult(cfg, banned, jar, now);
      var token := Get(jar, JWT_COOKIE_NAME).value.value;
      VerifyTokenResult(cfg, banned', token, later) == Err(InvalidToken) &&
      LogoutResult(cfg, banned', jar, later) == (Err(InvalidToken), banned') &&
      LogoutResult(cfg, banned', reply.value.jar, later) == (Err(MissingToken), banned')
  {
  }

  /** Logout with a jar whose JWT cookie holds a valid, unrevoked token succeeds and revokes exactly that token. */
  lemma LogoutOfValidToken(cfg: Config, banned: set<string>, jar: CookieJar, now: int)
    requires Get(jar, JWT_COOKIE_NAME).Some?
    requires Get(jar, JWT_COOKIE_NAME).value.value !in banned
    requires cfg.decode(Get(jar, JWT_COOKIE_NAME).value.value, now).Some?
    ensures LogoutResult(cfg, banned, jar, now).0.Ok?
    ensures LogoutResult(cfg, banned, jar, now).1 == banned + {Get(jar, JWT_COOKIE_NAME).value.value}
  {
  }

  /** The HTTP status a handler's answer carries: its own on success, the mapped one on error. */
  function Status<T>(r: Result<T, AuthAPIError>, ok: nat): nat {
    if r.Ok? then ok else IntoResponse(r.error).status
  }

  /** Draws for the scenario's login; a user without 2FA never uses them. */
  const ScenarioUuid: Uuids.Uuid := seq(32, i => 0)
  const ScenarioRolls: TwoFACodes.SixDigits := [1, 2, 3, 4, 5, 6]

  /** Signup without 2FA on a fresh store answers 201 and stores exactly that user. */
  method SignupOnFreshStore(cfg: Config, email: string, password: string) returns (status: nat, users: HashMapUserStore)
    requires cfg.validEmail(email) && Utf8Length(password) >= MIN_LENGTH
    ensures fresh(users) && users.Valid()
    ensures status == CREATED && users.users == map[Email(email) := DataStores.User(Email(email), Password(password), false)]
  {
    users := new HashMapUserStore();
    var signedUp := Signup(cfg, users, SignupRequest(email, password, false));
    status := Status(signedUp, CREATED);
  }

  /** Login of the only user, registered without 2FA, answers 200 with the cookie of its token in the jar. */
  method LoginRegisteredUser(cfg: Config, users: HashMapUserStore, email: string, password: string, now: int, token: string)
    returns (status: nat, jar: CookieJar)
    requires users.Valid() && users.users == map[Email(email) := DataStores.User(Email(email), Password(password), false)]
    requires cfg.validEmail(email) && Utf8Length(password) >= MIN_LENGTH
    requires now + TOKEN_TTL_SECONDS >= 0
    requires cfg.encode(Claims(email, now + TOKEN_TTL_SECONDS)) == Some(token)
    ensures status == OK
    ensures Get(jar, JWT_COOKIE_NAME) == Some(CreateAuthCookie(token))
  {
    var codes := new HashMapTwoFACodeStore();
    var request := LoginRequest(email, password);
    ghost var expected := LoginResult(cfg, users.users, map[], EmptyJar, request, now, ScenarioUuid, ScenarioRolls, true);
    assert expected.result.Ok? && expected.result.value.status == OK &&
      Get(expected.result.value.jar, JWT_COOKIE_NAME) == Some(CreateAuthCookie(token)) by {
      assert GenerateAuthToken(cfg, Email(email), now) == Ok(token);
      LoginWithoutTwoFA(cfg, users.users, map[], EmptyJar, request, now, ScenarioUuid, ScenarioRolls, true);
    }
    var loggedIn, _ := Login(cfg, users, codes, EmptyJar, request, now, ScenarioUuid, ScenarioRolls, true);
    jar := loggedIn.value.jar;
    status := Status(loggedIn, loggedIn.value.status);
  }

  /** Signup of a user without 2FA, then its login, against fresh stores: 201, then 200 with the auth cookie. */
  method SignupThenLogin(cfg: Config, email: string, password: string, now: int, token: string)
    returns (statuses: seq<nat>, jar: CookieJar)
    requires cfg.validEmail(email) && Utf8Length(password) >= MIN_LENGTH
    requires now + TOKEN_TTL_SECONDS >= 0
    requires cfg.encode(Claims(email, now + TOKEN_TTL_SECONDS)) == Some(token)
    ensures statuses == [CREATED, OK]
    ensures Get(jar, JWT_COOKIE_NAME) == Some(CreateAuthCookie(token))
  {
    var signedUp, users := SignupOnFreshStore(cfg, email, password);
    var loggedIn;
    loggedIn, jar := LoginRegisteredUser(cfg, users, email, password, now, token);
    statuses := [signedUp, loggedIn];
  }

  /** With the session cookie of `token` in the jar: verify-token 200, logout 200, verify-token again 401. */
  method VerifyLogoutVerify(cfg: Config, jar: CookieJar, now: int, token: string) returns (statuses: seq<nat>)
    requires Get(jar, JWT_COOKIE_NAME).Some? && Get(jar, JWT_COOKIE_NAME).value.value == token
    requires cfg.decode(token, now).Some?
    ensures statuses == [OK, OK, UNAUTHORIZED]
  {
    var banned := new HashSetBannedTokenStore();
    var before := VerifyToken(cfg, banned, token, now);
    LogoutOfValidToken(cfg, banned.bannedTokens, jar, now);
    var loggedOut := Logout(cfg, banned, jar, now);
    var after := VerifyToken(cfg, banned, token, now);
    statuses := [Status(before, OK), Status(loggedOut, OK), Status(after, OK)];
  }

  /**
   * Signup without 2FA, login, verify-token, logout, verify-token again, with
   * the handlers called on fresh stores: the token verifies before the logout
   * and is refused with 401 after it.
   */
  method SignupLoginLogoutScenario(cfg: Config, now: int, token: string) returns (statuses: seq<nat>)
    requires cfg.validEmail("a@x.com")
    requires now + TOKEN_TTL_SECONDS >= 0
    requires cfg.encode(Claims("a@x.com", now + TOKEN_TTL_SECONDS)) == Some(token)
    requires DecodesBeforeExpiry(cfg, Claims("a@x.com", now + TOKEN_TTL_SECONDS), now)
    ensures statuses == [CREATED, OK, OK, OK, UNAUTHORIZED]
  {
    EightCharactersSuffice("password123");
    var first, jar := SignupThenLogin(cfg, "a@x.com", "password123", now, token);
    var rest := VerifyLogoutVerify(cfg, jar, now, token);
    statuses := [first[0], first[1], rest[0], rest[1], rest[2]];
  }
}

=== FILE: login.dfy ===
/** The `/login` handler and its two branches, `handle_2fa` and `handle_no_2fa`. */
module LoginRoute {
  import opened Wrappers
  import opened Emails
  import opened Passwords
  import LoginAttemptIds
  import TwoFACodes
  import Uuids
  import DataStores
  import opened HashMapUserStores
  import opened TwoFACodeStores
  import opened Cookies
  import opened ApiErrors
  import opened Auth

  datatype LoginRequest = LoginRequest(email: string, password: string)

  /** The two success bodies: none for a direct login, the challenge's id when 2FA is required. */
  datatype LoginResponse = RegularAuth | TwoFactorAuth(message: string, loginAttemptId: string)

  datatype LoginReply = LoginReply(jar: CookieJar, status: nat, body: LoginResponse)

  /** A call of the email client's `send_email`: recipient, subject and content. */
  datatype Notification = Notification(recipient: Email, subject: string, content: string)

  /** The handler's answer, the 2FA map it leaves, and the notification it tried to send, if any. */
  datatype LoginOutcome = LoginOutcome(
    result: Result<LoginReply, AuthAPIError>,
    codes: map<Email, DataStores.Challenge>,
    sent: Option<Notification>)

  const TWO_FA_SUBJECT := "Your 2FA Code"
  const TWO_FA_REQUIRED := "2FA required"

  /**
   * `handle_2fa`: store a fresh challenge under the email, then send its code.
   * `freshId` and `rolls` are the random draws of the two `default`
   * constructors, `delivered` is whether `send_email` succeeded.
   */
  function HandleTwoFAResult(
    email: Email, codes: map<Email, DataStores.Challenge>, jar: CookieJar,
    freshId: Uuids.Uuid, rolls: TwoFACodes.SixDigits, delivered: bool): (out: LoginOutcome)
    ensures out.codes == codes[email := (LoginAttemptIds.Default(freshId), TwoFACodes.Default(rolls))]
    ensures out.sent == Some(Notification(email, TWO_FA_SUBJECT, TwoFACodes.Default(rolls).value))
    ensures out.sent.value.content == out.codes[email].1.value
    ensures out.result.Ok? <==> delivered
    ensures !delivered ==> out.result == Err(UnexpectedError)
    ensures delivered ==>
      out.result.value.status == PARTIAL_CONTENT && out.result.value.jar == jar &&
      out.result.value.body == TwoFactorAuth(TWO_FA_REQUIRED, out.codes[email].0.value)
  {
    var id := LoginAttemptIds.Default(freshId);
    var code := TwoFACodes.Default(rolls);
    var (added, codes') := AddCodeResult(codes, email, id, code);
    if added.Err? then LoginOutcome(Err(UnexpectedError), codes', None)
    else
      var note := Notification(email, TWO_FA_SUBJECT, code.value);
      if !delivered then LoginOutcome(Err(UnexpectedError), codes', Some(note))
      else LoginOutcome(Ok(LoginReply(jar, PARTIAL_CONTENT, TwoFactorAuth(TWO_FA_REQUIRED, id.value))), codes', Some(note))
  }

  /** `handle_no_2fa`: add a fresh auth cookie to the jar. */
  function HandleNoTwoFAResult(cfg: Config, email: Email, jar: CookieJar, now: int): (r: Result<LoginReply, AuthAPIError>)
    ensures r.Ok? <==> GenerateAuthToken(cfg, email, now).Ok?
    ensures r.Ok? ==>
      r.value.status == OK && r.value.body == RegularAuth &&
      r.value.jar == Add(jar, CreateAuthCookie(GenerateAuthToken(cfg, email, now).value))
    ensures r.Err? ==> r == Err(UnexpectedError)
  {
    match GenerateAuthCookie(cfg, email, now)
    case Err(_) => Err(UnexpectedError)
    case Ok(cookie) => Ok(LoginReply(Add(jar, cookie), OK, RegularAuth))
  }

  /** What `login` answers, the 2FA map it leaves and the notification it sends. */
  function LoginResult(
    cfg: Config, users: map<Email, DataStores.User>, codes: map<Email, DataStores.Challenge>,
    jar: CookieJar, request: LoginRequest, now: int,
    freshId: Uuids.Uuid, rolls: TwoFACodes.SixDigits, delivered: bool): (out: LoginOutcome)
    ensures out.result == Err(InvalidCredentials) <==>
      !cfg.validEmail(request.email) || Utf8Length(request.password) < MIN_LENGTH
    ensures out.result == Err(IncorrectCredentials) <==>
      cfg.validEmail(request.email) && Utf8Length(request.password) >= MIN_LENGTH &&
      ValidateUserResult(users, Email(request.email), Password(request.password)).Err?
    ensures out.codes != codes ==> Email(request.email) in users && users[Email(request.email)].requiresTwoFA
    ensures out.sent.Some? ==> Email(request.email) in users && users[Email(request.email)].requiresTwoFA
    ensures out.result == Err(InvalidCredentials) || out.result == Err(IncorrectCredentials) ==>
      out.codes == codes && out.sent == None
  {
    match Emails.Parse(cfg.validEmail, request.email)
    case Err(_) => LoginOutcome(Err(InvalidCredentials), codes, None)
    case Ok(email) =>
      match Passwords.Parse(request.password)
      case Err(_) => LoginOutcome(Err(InvalidCredentials), codes, None)
      case Ok(password) =>
        if ValidateUserResult(users, email, password).Err? then
          LoginOutcome(Err(IncorrectCredentials), codes, None)
        else match GetUserResult(users, email)
          case Err(_) => LoginOutcome(Err(IncorrectCredentials), codes, None)
          case Ok(user) =>
            if user.requiresTwoFA then HandleTwoFAResult(user.email, codes, jar, freshId, rolls, delivered)
            else LoginOutcome(HandleNoTwoFAResult(cfg, user.email, jar, now), codes, None)
  }

  method HandleTwoFA(
    email: Email, store: HashMapTwoFACodeStore, jar: CookieJar,
    freshId: Uuids.Uuid, rolls: TwoFACodes.SixDigits, delivered: bool)
    returns (r: Result<LoginReply, AuthAPIError>, sent: Option<Notification>)
    modifies store
    ensures LoginOutcome(r, store.codes, sent) == HandleTwoFAResult(email, old(store.codes), jar, freshId, rolls, delivered)
  {
    var id := LoginAttemptIds.Default(freshId);
    var code := TwoFACodes.Default(rolls);
    var added := store.AddCode(email, id, code);
    if added.Err? {
      return Err(UnexpectedError), None;
    }
    sent := Some(Notification(email, TWO_FA_SUBJECT, code.value));
    if !delivered {
      return Err(UnexpectedError), sent;
    }
    r := Ok(LoginReply(jar, PARTIAL_CONTENT, TwoFactorAuth(TWO_FA_REQUIRED, id.value)));
  }

  method HandleNoTwoFA(cfg: Config, email: Email, jar: CookieJar, now: int)
    returns (r: Result<LoginReply, AuthAPIError>)
    ensures r == HandleNoTwoFAResult(cfg, email, jar, now)
  {
    var cookie := GenerateAuthCookie(cfg, email, now);
    if cookie.Err? {
      return Err(UnexpectedError);
    }
    r := Ok(LoginReply(Add(jar, cookie.value), OK, RegularAuth));
  }

  /** `login`: validate the input, check the credentials, then branch on the user's 2FA setting. */
  method Login(
    cfg: Config, users: HashMapUserStore, codes: HashMapTwoFACodeStore,
    jar: CookieJar, request: LoginRequest, now: int,
    freshId: Uuids.Uuid, rolls: TwoFACodes.SixDigits, delivered: bool)
    returns (r: Result<LoginReply, AuthAPIError>, sent: Option<Notification>)
    requires users.Valid()
    modifies codes
    ensures LoginOutcome(r, codes.codes, sent) ==
      LoginResult(cfg, users.users, old(codes.codes), jar, request, now, freshId, rolls, delivered)
  {
    var email := Emails.Parse(cfg.validEmail, request.email);
    if email.Err? {
      return Err(InvalidCredentials), None;
    }
    var password := Passwords.Parse(request.password);
    if password.Err? {
      return Err(InvalidCredentials), None;
    }
    var valid := users.ValidateUser(email.value, password.value);
    if valid.Err? {
      return Err(IncorrectCredentials), None;
    }
    var user := users.GetUser(email.value);
    if user.Err? {
      return Err(IncorrectCredentials), None;
    }
    if user.value.requiresTwoFA {
      r, sent := HandleTwoFA(user.value.email, codes, jar, freshId, rolls, delivered);
    } else {
      r := HandleNoTwoFA(cfg, user.value.email, jar, now);
      sent := None;
    }
  }
}

=== FILE: login_attempt_ids.dfy ===
/** The `LoginAttemptId` value type: the canonical text of a UUID naming one 2FA challenge. */
module LoginAttemptIds {
  import opened Wrappers
  import Uuids

  /** Wraps the exposed string; `as_ref` is the field `value`. */
  datatype LoginAttemptId = LoginAttemptId(value: string)

  const INVALID_ID := "Invalid login attempt id"

  /** `LoginAttemptId::parse`: the UUID parser decides, and the canonical rendering is kept. */
  function Parse(id: string): (r: Result<LoginAttemptId, string>)
    ensures r.Ok? <==> Uuids.Parse(id).Some?
    ensures r.Ok? ==> r.value.value == Uuids.Hyphenated(Uuids.Parse(id).value)
    ensures r.Ok? ==> |r.value.value| == 36
    ensures r.Err? ==> r.error == INVALID_ID
  {
    match Uuids.Parse(id)
    case None => Err(INVALID_ID)
    case Some(u) => Ok(LoginAttemptId(Uuids.Hyphenated(u)))
  }

  /** `LoginAttemptId::default`: a fresh version-4 UUID, rendered canonically. */
  function Default(random: Uuids.Uuid): (r: LoginAttemptId)
    ensures Parse(r.value) == Ok(r)
    ensures r.value[14] == '4'
  {
    var u := Uuids.NewV4(random);
    Uuids.HyphenatedRoundTrip(u);
    LoginAttemptId(Uuids.Hyphenated(u))
  }

  /** A canonical (lower-case hyphenated) UUID string round-trips through `Parse` unchanged. */
  lemma CanonicalRoundTrip(u: Uuids.Uuid)
    ensures Parse(Uuids.Hyphenated(u)) == Ok(LoginAttemptId(Uuids.Hyphenated(u)))
  {
    Uuids.HyphenatedRoundTrip(u);
  }

  /** Parsing is idempotent: the stored value parses to itself. */
  lemma ParseIdempotent(id: string)
    requires Parse(id).Ok?
    ensures Parse(Parse(id).value.value) == Parse(id)
  {
    Uuids.CanonicalIsFixedPoint(id);
  }

  /** The unit test's rejected input. */
  lemma NotAUuidRejected()
    ensures Parse("not-a-uuid").Err?
  {
  }
}

=== FILE: logout.dfy ===
/** The `/logout` handler: revoke the session token and clear its cookie. */
module LogoutRoute {
  import opened Wrappers
  import opened BannedTokenStores
  import opened Cookies
  import opened ApiErrors
  import opened Auth

  datatype LogoutReply = LogoutReply(status: nat, jar: CookieJar)

  /** The cookie handed to `jar.remove`: the JWT cookie's name, with path "/". */
  const RemovalCookie := Named(JWT_COOKIE_NAME).(path := Some("/"))

  /** What `logout` answers and the revocation set it leaves. */
  function LogoutResult(cfg: Config, banned: set<string>, jar: CookieJar, now: int)
    : (out: (Result<LogoutReply, AuthAPIError>, set<string>))
    ensures out.0 == Err(MissingToken) <==> Get(jar, JWT_COOKIE_NAME).None?
    ensures out.0 == Err(InvalidToken) <==>
      Get(jar, JWT_COOKIE_NAME).Some? && ValidateTokenResult(cfg, banned, Get(jar, JWT_COOKIE_NAME).value.value, now).Err?
    ensures out.0.Ok? ==> out.1 == banned + {Get(jar, JWT_COOKIE_NAME).value.value}
    ensures out.0.Ok? ==> out.0.value.status == OK && Get(out.0.value.jar, JWT_COOKIE_NAME).None?
    ensures out.0.Ok? ==> out.0.value.jar == Remove(jar, RemovalCookie)
    ensures !out.0.Ok? ==> out.1 == banned
  {
    match Get(jar, JWT_COOKIE_NAME)
    case None => (Err(MissingToken), banned)
    case Some(cookie) =>
      var token := cookie.value;
      if ValidateTokenResult(cfg, banned, token, now).Err? then (Err(InvalidToken), banned)
      else
        var (added, banned') := AddBannedResult(banned, token);
        if added.Err? then (Err(UnexpectedError), banned')
        else (Ok(LogoutReply(OK, Remove(jar, RemovalCookie))), banned')
  }

  /** `logout`: read the JWT cookie, validate its token, ban it, remove the cookie. */
  method Logout(cfg: Config, store: HashSetBannedTokenStore, jar: CookieJar, now: int)
    returns (r: Result<LogoutReply, AuthAPIError>)
    modifies store
    ensures (r, store.bannedTokens) == LogoutResult(cfg, old(store.bannedTokens), jar, now)
  {
    var cookie := Get(jar, JWT_COOKIE_NAME);
    if cookie.None? {
      return Err(MissingToken);
    }
    var token := cookie.value.value;
    var claims := ValidateToken(cfg, store, token, now);
    if claims.Err? {
      return Err(InvalidToken);
    }
    var added := store.AddBannedToken(token);
    if added.Err? {
      return Err(UnexpectedError);
    }
    r := Ok(LogoutReply(OK, Remove(jar, RemovalCookie)));
  }
}

=== FILE: passwords.dfy ===
/**
 * The `Password` value type: a plaintext password accepted at the boundary
 * once it is at least eight bytes long in UTF-8.
 */
module Passwords {
  import opened Wrappers

  /** Wraps the exposed string; `as_ref` is the field `value`. */
  datatype Password = Password(value: string)

  const MIN_LENGTH: nat := 8

  /** Number of bytes the UTF-8 encoding of one Unicode scalar value takes. */
  function Utf8Width(c: char): (w: nat)
    ensures 1 <= w <= 4
    ensures w == 1 <==> (c as int) < 0x80
    ensures w == 4 <==> (c as int) >= 0x1_0000
  {
    if (c as int) < 0x80 then 1
    else if (c as int) < 0x800 then 2
    else if (c as int) < 0x1_0000 then 3
    else 4
  }

  predicate IsAscii(s: string) {
    forall i | 0 <= i < |s| :: (s[i] as int) < 0x80
  }

  /** `String::len`: the length of the UTF-8 encoding, in bytes. */
  function Utf8Length(s: string): (n: nat)
    ensures |s| <= n <= 4 * |s|
    ensures n == |s| <==> IsAscii(s)
  {
    if s == [] then 0 else Utf8Width(s[0]) + Utf8Length(s[1..])
  }

  /** `Password::parse`: a single length test, no upper bound, no character classes. */
  function Parse(password: string): (r: Result<Password, string>)
    ensures r.Err? <==> Utf8Length(password) < MIN_LENGTH
    ensures r.Ok? ==> r.value.value == password
    ensures r.Err? ==> r.error == "Failed to parse string to a Password type"
  {
    if Utf8Length(password) < MIN_LENGTH then
      Err("Failed to parse string to a Password type")
    else
      Ok(Password(password))
  }

  /** Every password of at least eight characters is accepted, whatever the characters. */
  lemma EightCharactersSuffice(password: string)
    requires |password| >= MIN_LENGTH
    ensures Parse(password) == Ok(Password(password))
  {
  }

  /** For ASCII input, bytes and characters agree, so rejection is exactly "fewer than 8 characters". */
  lemma AsciiRejectedIffShort(password: string)
    requires IsAscii(password)
    ensures Parse(password).Err? <==> |password| < MIN_LENGTH
  {
  }

  /** Length is counted in bytes: two four-byte characters already make a valid password. */
  lemma TwoEmojiAccepted()
    ensures Parse("\U{1F600}\U{1F600}").Ok?
  {
    var s := "\U{1F600}\U{1F600}";
    assert Utf8Width(s[0]) == 4 && Utf8Width(s[1]) == 4;
    assert Utf8Length(s) == Utf8Width(s[0]) + Utf8Length(s[1..]);
    assert Utf8Length(s[1..]) == Utf8Width(s[1]) + Utf8Length(s[2..]);
    assert s[2..] == [];
  }

  /** The rejections of the source's unit tests: the empty string and "1234567". */
  lemma ShortExamplesRejected()
    ensures Parse("").Err?
    ensures Parse("1234567").Err?
  {
    assert IsAscii("1234567");
  }
}

=== FILE: signup.dfy ===
/** The `/signup` handler. */
module SignupRoute {
  import opened Wrappers
  import opened Emails
  import opened Passwords
  import DataStores
  import opened HashMapUserStores
  import opened ApiErrors
  import opened Auth

  datatype SignupRequest = SignupRequest(email: string, password: string, requiresTwoFA: bool)

  datatype SignupResponse = SignupResponse(status: nat, message: string)

  const USER_CREATED := "User created successfully"

  /** The user a well-formed request creates. */
  function RequestedUser(request: SignupRequest): DataStores.User {
    DataStores.User(Email(request.email), Password(request.password), request.requiresTwoFA)
  }

  /** What the handler answers and the user map it leaves. */
  function SignupResult(cfg: Config, users: map<Email, DataStores.User>, request: SignupRequest)
    : (out: (Result<SignupResponse, AuthAPIError>, map<Email, DataStores.User>))
    ensures out.0 == Err(InvalidCredentials) <==>
      !cfg.validEmail(request.email) || Utf8Length(request.password) < MIN_LENGTH
    ensures out.0 == Err(UserAlreadyExists) <==>
      cfg.validEmail(request.email) && Utf8Length(request.password) >= MIN_LENGTH && Email(request.email) in users
    ensures cfg.validEmail(request.email) && Utf8Length(request.password) >= MIN_LENGTH && Email(request.email) !in users ==>
      out.0 == Ok(SignupResponse(CREATED, USER_CREATED))
    ensures out.0.Ok? ==> out.0.value == SignupResponse(CREATED, USER_CREATED)
    ensures out.0.Ok? ==> out.1 == users[Email(request.email) := RequestedUser(request)]
    ensures !out.0.Ok? ==> out.1 == users
    ensures out.0 != Err(UnexpectedError)
  {
    match Emails.Parse(cfg.validEmail, request.email)
    case Err(_) => (Err(InvalidCredentials), users)
    case Ok(email) =>
      match Passwords.Parse(request.password)
      case Err(_) => (Err(InvalidCredentials), users)
      case Ok(password) =>
        var user := DataStores.User(email, password, request.requiresTwoFA);
        if GetUserResult(users, user.email).Ok? then (Err(UserAlreadyExists), users)
        else
          var (added, users') := AddUserResult(users, user);
          if added.Err? then (Err(UnexpectedError), users')
          else (Ok(SignupResponse(CREATED, USER_CREATED)), users')
  }

  /** `signup`: validate the input, refuse a known email, then add the user. */
  method Signup(cfg: Config, store: HashMapUserStore, request: SignupRequest)
    returns (r: Result<SignupResponse, AuthAPIError>)
    requires store.Valid()
    modifies store
    ensures store.Valid()
    ensures (r, store.users) == SignupResult(cfg, old(store.users), request)
  {
    var email := Emails.Parse(cfg.validEmail, request.email);
    if email.Err? {
      return Err(InvalidCredentials);
    }
    var password := Passwords.Parse(request.password);
    if password.Err? {
      return Err(InvalidCredentials);
    }
    var user := DataStores.User(email.value, password.value, request.requiresTwoFA);
    var existing := store.GetUser(user.email);
    if existing.Ok? {
      return Err(UserAlreadyExists);
    }
    var added := store.AddUser(user);
    if added.Err? {
      return Err(UnexpectedError);
    }
    r := Ok(SignupResponse(CREATED, USER_CREATED));
  }
}

=== FILE: two_fa_code_store.dfy ===
/** `HashMapTwoFACodeStore`: the pending challenge of each email, in a map updated in place. */
module TwoFACodeStores {
  import opened Wrappers
  import opened Emails
  import opened LoginAttemptIds
  import opened TwoFACodes
  import opened DataStores

  /** What `get_code` answers for a given map. */
  function GetCodeResult(codes: map<Email, Challenge>, email: Email): Result<Challenge, TwoFACodeStoreError> {
    if email in codes then Ok(codes[email]) else Err(LoginAttemptIdNotFound)
  }

  /** What `add_code` answers, and the map it leaves. */
  function AddCodeResult(codes: map<Email, Challenge>, email: Email, id: LoginAttemptId, code: TwoFACode)
    : (Result<(), TwoFACodeStoreError>, map<Email, Challenge>)
  {
    (Ok(()), codes[email := (id, code)])
  }

  /** What `remove_code` answers, and the map it leaves. */
  function RemoveCodeResult(codes: map<Email, Challenge>, email: Email): (Result<(), TwoFACodeStoreError>, map<Email, Challenge>) {
    if email in codes then (Ok(()), codes - {email}) else (Err(LoginAttemptIdNotFound), codes)
  }

  class HashMapTwoFACodeStore {
    var codes: map<Email, Challenge>

    constructor ()
      ensures codes == map[]
    {
      codes := map[];
    }

    /** `add_code`: always succeeds and replaces any challenge the email had. */
    method AddCode(email: Email, loginAttemptId: LoginAttemptId, code: TwoFACode)
      returns (r: Result<(), TwoFACodeStoreError>)
      modifies this
      ensures r == Ok(())
      ensures codes == old(codes)[email := (loginAttemptId, code)]
      ensures (r, codes) == AddCodeResult(old(codes), email, loginAttemptId, code)
    {
      codes := codes[email := (loginAttemptId, code)];
      r := Ok(());
    }

    /** `remove_code`: deletes a present entry, and reports `LoginAttemptIdNotFound` for an absent one. */
    method RemoveCode(email: Email) returns (r: Result<(), TwoFACodeStoreError>)
      modifies this
      ensures email in old(codes) ==> r == Ok(()) && codes == old(codes) - {email}
      ensures email !in old(codes) ==> r == Err(LoginAttemptIdNotFound) && codes == old(codes)
      ensures (r, codes) == RemoveCodeResult(old(codes), email)
    {
      if email in codes {
        codes := codes - {email};
        r := Ok(());
      } else {
        r := Err(LoginAttemptIdNotFound);
      }
    }

    /** `get_code`: the stored (id, code) pair, or `LoginAttemptIdNotFound`. */
    method GetCode(email: Email) returns (r: Result<Challenge, TwoFACodeStoreError>)
      ensures r == GetCodeResult(codes, email)
      ensures r.Ok? <==> email in codes
    {
      if email in codes {
        r := Ok(codes[email]);
      } else {
        r := Err(LoginAttemptIdNotFound);
      }
    }
  }

  /** After `add_code(e, id, c)`, `get_code(e)` yields exactly (id, c); other emails are unaffected. */
  lemma AddThenGet(codes: map<Email, Challenge>, email: Email, id: LoginAttemptId, code: TwoFACode, other: Email)
    requires other != email
    ensures GetCodeResult(codes[email := (id, code)], email) == Ok((id, code))
    ensures GetCodeResult(codes[email := (id, code)], other) == GetCodeResult(codes, other)
  {
  }

  /** After a removal, the email has no challenge and other emails are unaffected. */
  lemma RemoveThenGet(codes: map<Email, Challenge>, email: Email, other: Email)
    requires other != email
    ensures GetCodeResult(codes - {email}, email) == Err(LoginAttemptIdNotFound)
    ensures GetCodeResult(codes - {email}, other) == GetCodeResult(codes, other)
  {
  }

  /** Two adds for one email leave one challenge: the second. */
  method OverwriteScenario(email: Email, id1: LoginAttemptId, c1: TwoFACode, id2: LoginAttemptId, c2: TwoFACode)
    returns (latest: Result<Challenge, TwoFACodeStoreError>, removed: Result<(), TwoFACodeStoreError>,
             removedAgain: Result<(), TwoFACodeStoreError>, gone: Result<Challenge, TwoFACodeStoreError>)
    ensures latest == Ok((id2, c2))
    ensures removed == Ok(()) && removedAgain == Err(LoginAttemptIdNotFound)
    ensures gone == Err(LoginAttemptIdNotFound)
  {
    var store := new HashMapTwoFACodeStore();
    var r := store.AddCode(email, id1, c1);
    r := store.AddCode(email, id2, c2);
    latest := store.GetCode(email);
    removed := store.RemoveCode(email);
    removedAgain := store.RemoveCode(email);
    gone := store.GetCode(email);
  }
}

=== FILE: two_fa_codes.dfy ===
/**
 * The `TwoFACode` value type. `Parse` follows the source: the text must be
 * accepted by Rust's `str::parse::<u32>` and its value must lie in
 * 100000..=999999. `Default` produces six random decimal digits.
 */
module TwoFACodes {
  import opened Wrappers

  /** Wraps the code text exactly as given; `as_ref` is the field `value`. */
  datatype TwoFACode = TwoFACode(value: string)

  const U32_MAX: nat := 4_294_967_295
  const MIN_CODE: nat := 100_000
  const MAX_CODE: nat := 999_999
  const INVALID_CODE := "Invalid 2FA code"

  predicate IsAsciiDigit(c: char) {
    '0' <= c <= '9'
  }

  predicate AllDigits(s: string) {
    forall i | 0 <= i < |s| :: IsAsciiDigit(s[i])
  }

  function DigitValue(c: char): (d: nat)
    requires IsAsciiDigit(c)
    ensures d < 10
  {
    (c as int) - ('0' as int)
  }

  function Pow10(n: nat): (p: nat)
    ensures p >= 1
  {
    if n == 0 then 1 else 10 * Pow10(n - 1)
  }

  /** The value of a string of decimal digits, read left to right as `parse` accumulates it. */
  function DecimalValue(s: string): nat
    requires AllDigits(s)
  {
    if s == [] then 0 else DecimalValue(s[..|s| - 1]) * 10 + DigitValue(s[|s| - 1])
  }

  /** The digits `parse::<u32>` reads: an optional leading '+' is skipped. */
  function UnsignedDigits(s: string): string {
    if |s| > 0 && s[0] == '+' then s[1..] else s
  }

  /**
   * `str::parse::<u32>`: an optional '+', then one or more ASCII digits, and a
   * value that fits in 32 bits; any other text (empty, a lone '+', a '-', a
   * non-digit, an overflow) is an error.
   */
  function ParseU32(s: string): (r: Option<nat>)
    ensures r.Some? ==> r.value <= U32_MAX
  {
    var digits := UnsignedDigits(s);
    if |digits| == 0 || !AllDigits(digits) then None
    else if DecimalValue(digits) > U32_MAX then None
    else Some(DecimalValue(digits))
  }

  /** Up to nine digits always fit in a u32, with or without a leading '+'; an empty numeral or a sign alone does not parse. */
  lemma ShortNumeralsFit(s: string)
    requires 1 <= |s| <= 9 && AllDigits(s)
    ensures ParseU32(s) == Some(DecimalValue(s))
    ensures ParseU32("+" + s) == ParseU32(s)
    ensures ParseU32("") == ParseU32("+") == ParseU32("-" + s) == None
  {
    DecimalBelowPower(s);
    PowMonotone(|s|, 9);
    assert Pow10(9) == 1_000_000_000;
    assert UnsignedDigits("+" + s) == s;
    assert !IsAsciiDigit(("-" + s)[0]);
  }

  /** The u32 boundary: 4294967295 parses, 4294967296 overflows. */
  lemma U32Boundary()
    ensures ParseU32("4294967295") == Some(U32_MAX)
    ensures ParseU32("4294967296") == None
  {
    var prefix := "";
    var digits := "429496729";
    for i := 0 to 9
      invariant prefix == digits[..i] && AllDigits(prefix)
      invariant DecimalValue(prefix) == [0, 4, 42, 429, 4294, 42949, 429496, 4294967, 42949672, 429496729][i]
    {
      DecimalAppend(prefix, digits[i]);
      assert digits[..i + 1] == prefix + [digits[i]];
      prefix := prefix + [digits[i]];
    }
    assert prefix == digits;
    DecimalAppend(digits, '5');
    DecimalAppend(digits, '6');
    assert digits + ['5'] == "4294967295" && digits + ['6'] == "4294967296";
    assert UnsignedDigits("4294967295") == "4294967295";
    assert UnsignedDigits("4294967296") == "4294967296";
  }

  /** Appending a digit shifts the value one decimal place. */
  lemma DecimalAppend(s: string, c: char)
    requires AllDigits(s) && IsAsciiDigit(c)
    ensures AllDigits(s + [c]) && DecimalValue(s + [c]) == DecimalValue(s) * 10 + DigitValue(c)
  {
    assert (s + [c])[..|s|] == s;
  }

  /** `TwoFACode::parse`. */
  function Parse(code: string): (r: Result<TwoFACode, string>)
    ensures r.Ok? ==> r.value.value == code
    ensures r.Ok? <==> ParseU32(code).Some? && MIN_CODE <= ParseU32(code).value <= MAX_CODE
    ensures r.Err? ==> r.error == INVALID_CODE
  {
    match ParseU32(code)
    case None => Err(INVALID_CODE)
    case Some(n) =>
      if MIN_CODE <= n <= MAX_CODE then Ok(TwoFACode(code)) else Err(INVALID_CODE)
  }

  /** A draw of `rng.gen_range(0..10)`. */
  type Digit = d: nat | d < 10

  /** The six draws `Default` makes. */
  type SixDigits = s: seq<Digit> | |s| == 6 witness [0, 0, 0, 0, 0, 0]

  function DigitChar(d: Digit): (c: char)
    ensures IsAsciiDigit(c) && DigitValue(c) == d
  {
    (('0' as int) + d) as char
  }

  /** `TwoFACode::default`: each draw rendered with `to_string` and collected. */
  function Default(rolls: SixDigits): (r: TwoFACode)
    ensures |r.value| == 6 && AllDigits(r.value)
    ensures forall i | 0 <= i < 6 :: DigitValue(r.value[i]) == rolls[i]
  {
    TwoFACode(seq(6, i requires 0 <= i < 6 => DigitChar(rolls[i])))
  }

  // ---------------------------------------------------------------------------
  // Facts about decimal values

  lemma {:induction false} DecimalBelowPower(s: string)
    requires AllDigits(s)
    ensures DecimalValue(s) < Pow10(|s|)
  {
    if s != [] {
      DecimalBelowPower(s[..|s| - 1]);
    }
  }

  lemma {:induction false} DecimalAtLeastLeadingPower(s: string)
    requires AllDigits(s) && |s| > 0 && s[0] != '0'
    ensures DecimalValue(s) >= Pow10(|s| - 1)
  {
    if |s| > 1 {
      DecimalAtLeastLeadingPower(s[..|s| - 1]);
    }
  }

  lemma {:induction false} LeadingZeroIgnored(s: string)
    requires AllDigits(s) && |s| > 0 && s[0] == '0'
    ensures DecimalValue(s) == DecimalValue(s[1..])
  {
    if |s| > 1 {
      var p := s[..|s| - 1];
      LeadingZeroIgnored(p);
      assert p[1..] == s[1..][..|s[1..]| - 1];
    }
  }

  // ---------------------------------------------------------------------------
  // What `Parse` accepts

  /** Among six-digit strings, `Parse` accepts exactly those whose first digit is not '0'. */
  lemma SixDigitCodes(s: string)
    requires |s| == 6 && AllDigits(s)
    ensures Parse(s).Ok? <==> s[0] != '0'
  {
    DecimalBelowPower(s);
    assert Pow10(6) == 1_000_000;
    assert UnsignedDigits(s) == s;
    if s[0] == '0' {
      LeadingZeroIgnored(s);
      DecimalBelowPower(s[1..]);
      assert Pow10(5) == 100_000;
    } else {
      DecimalAtLeastLeadingPower(s);
      assert Pow10(5) == 100_000;
    }
  }

  /** Five characters or fewer can never reach 100000, so they are always rejected. */
  lemma ShortInputRejected(s: string)
    requires |s| <= 5
    ensures Parse(s).Err?
  {
    var digits := UnsignedDigits(s);
    if |digits| > 0 && AllDigits(digits) {
      DecimalBelowPower(digits);
      assert Pow10(|digits|) <= Pow10(5) == 100_000 by {
        PowMonotone(|digits|, 5);
      }
    }
  }

  lemma {:induction false} PowMonotone(m: nat, n: nat)
    requires m <= n
    ensures Pow10(m) <= Pow10(n)
  {
    if m < n {
      PowMonotone(m, n - 1);
    }
  }

  /** Seven or more digits without a leading zero exceed 999999, so they are rejected. */
  lemma LongNumeralRejected(s: string)
    requires |s| >= 7 && AllDigits(s) && s[0] != '0'
    ensures Parse(s).Err?
  {
    assert UnsignedDigits(s) == s;
    DecimalAtLeastLeadingPower(s);
    PowMonotone(6, |s| - 1);
    assert Pow10(6) == 1_000_000;
  }

  /** A character other than a digit (or a '+' in front) makes the text unparseable. */
  lemma NonDigitRejected(s: string, i: nat)
    requires i < |s| && !IsAsciiDigit(s[i]) && !(i == 0 && s[0] == '+')
    ensures Parse(s).Err?
  {
    var digits := UnsignedDigits(s);
    if |s| > 0 && s[0] == '+' {
      assert digits[i - 1] == s[i];
    } else {
      assert digits[i] == s[i];
    }
  }

  /**
   * The numeric check admits spellings that are not six digits: a leading '+'
   * or an extra leading zero is accepted, and `as_ref` then returns that text.
   */
  lemma NonCanonicalSpellingsAccepted(s: string)
    requires |s| == 6 && AllDigits(s) && s[0] != '0'
    ensures Parse("+" + s) == Ok(TwoFACode("+" + s))
    ensures Parse("0" + s) == Ok(TwoFACode("0" + s))
  {
    SixDigitCodes(s);
    assert UnsignedDigits(s) == s;
    assert UnsignedDigits("+" + s) == s;
    var z := "0" + s;
    assert UnsignedDigits(z) == z && z[1..] == s;
    LeadingZeroIgnored(z);
  }

  /** The unit tests' cases: "12345", "1234567" and "12345a" fail; "123456" parses and round-trips. */
  lemma TestCases()
    ensures Parse("12345").Err?
    ensures Parse("1234567").Err?
    ensures Parse("12345a").Err?
    ensures Parse("123456") == Ok(TwoFACode("123456"))
    ensures Parse("987654").Ok? && Parse("987654").value.value == "987654"
  {
    ShortInputRejected("12345");
    assert AllDigits("1234567");
    LongNumeralRejected("1234567");
    NonDigitRejected("12345a", 5);
    assert AllDigits("123456");
    SixDigitCodes("123456");
    assert AllDigits("987654");
    SixDigitCodes("987654");
  }

  // ---------------------------------------------------------------------------
  // `Default` against `Parse`

  /**
   * The generated code is accepted by `Parse` exactly when its first draw is
   * not zero: one code in ten that `Default` produces cannot be parsed back.
   */
  lemma DefaultParsesIffNoLeadingZero(rolls: SixDigits)
    ensures Parse(Default(rolls).value).Ok? <==> rolls[0] != 0
  {
    var s := Default(rolls).value;
    SixDigitCodes(s);
    assert DigitValue(s[0]) == rolls[0];
  }

  /** A concrete generated code that `Parse` rejects. */
  lemma DefaultCanBeUnparseable()
    ensures Default([0, 1, 2, 3, 4, 5]).value == "012345"
    ensures Parse("012345").Err?
  {
    DefaultParsesIffNoLeadingZero([0, 1, 2, 3, 4, 5]);
  }

  /** Every six-digit string is a possible output of `Default`. */
  lemma EverySixDigitStringGenerable(s: string) returns (rolls: SixDigits)
    requires |s| == 6 && AllDigits(s)
    ensures Default(rolls).value == s
  {
    rolls := seq(6, i requires 0 <= i < 6 => DigitValue(s[i]));
    var d := Default(rolls).value;
    forall i | 0 <= i < 6
      ensures d[i] == s[i]
    {
      assert DigitValue(d[i]) == DigitValue(s[i]);
    }
  }
}

=== FILE: uuids.dfy ===
/**
 * The part of the `uuid` crate the login attempt id relies on: `Uuid::parse_str`,
 * the lower-case hyphenated rendering of `to_string` (the 8-4-4-4-12 layout of
 * section 4 of RFC 9562) and the version and variant stamping of `new_v4`.
 * A UUID is held as its 32 hexadecimal digits.
 */
module Uuids {
  import opened Wrappers

  type Nibble = n: int | 0 <= n < 16

  type Uuid = s: seq<Nibble> | |s| == 32 witness seq(32, i => 0)

  predicate IsHexDigit(c: char) {
    '0' <= c <= '9' || 'a' <= c <= 'f' || 'A' <= c <= 'F'
  }

  /** Hex digits are read case-insensitively. */
  function HexValue(c: char): Nibble
    requires IsHexDigit(c)
  {
    if '0' <= c <= '9' then (c as int) - ('0' as int)
    else if 'a' <= c <= 'f' then (c as int) - ('a' as int) + 10
    else (c as int) - ('A' as int) + 10
  }

  /** `to_string` writes lower-case digits. */
  function HexChar(n: Nibble): (c: char)
    ensures IsHexDigit(c) && HexValue(c) == n
    ensures !('A' <= c <= 'F')
  {
    if n < 10 then (('0' as int) + n) as char else (('a' as int) + n - 10) as char
  }

  /** The lower-case form of a character: 'A'..'F' become 'a'..'f', all else is unchanged. */
  function Lower(c: char): char {
    if 'A' <= c <= 'F' then ((c as int) - ('A' as int) + ('a' as int)) as char else c
  }

  /** A digit read and written back comes out as its lower-case form. */
  lemma HexCharOfValue(c: char)
    requires IsHexDigit(c)
    ensures HexChar(HexValue(c)) == Lower(c)
  {
  }

  /** Reads a run of hex digits; each nibble is the one whose lower-case digit the input spells, in either case. */
  function ParseHex(s: string): (r: Option<seq<Nibble>>)
    ensures r.Some? <==> forall i | 0 <= i < |s| :: IsHexDigit(s[i])
    ensures r.Some? ==> |r.value| == |s|
    ensures r.Some? ==> forall i | 0 <= i < |s| :: HexChar(r.value[i]) == Lower(s[i])
  {
    if forall i | 0 <= i < |s| :: IsHexDigit(s[i]) then
      var digits := seq(|s|, i requires 0 <= i < |s| => HexValue(s[i]));
      assert forall i | 0 <= i < |s| :: HexChar(digits[i]) == Lower(s[i]) by {
        forall i | 0 <= i < |s| {
          HexCharOfValue(s[i]);
        }
      }
      Some(digits)
    else
      None
  }

  /** The 32 digits without separators (the "simple" format). */
  function Simple(u: Uuid): (s: string)
    ensures |s| == 32
  {
    seq(32, i requires 0 <= i < 32 => HexChar(u[i]))
  }

  /** `Uuid::to_string`: the hyphenated 8-4-4-4-12 format, lower case. */
  function Hyphenated(u: Uuid): (s: string)
    ensures |s| == 36
  {
    var d := Simple(u);
    d[..8] + "-" + d[8..12] + "-" + d[12..16] + "-" + d[16..20] + "-" + d[20..]
  }

  predicate HasHyphens(s: string)
    requires |s| == 36
  {
    s[8] == '-' && s[13] == '-' && s[18] == '-' && s[23] == '-'
  }

  /** The digits of a hyphenated string, separators dropped. */
  function StripHyphens(s: string): (d: string)
    requires |s| == 36
    ensures |d| == 32
  {
    s[..8] + s[9..13] + s[14..18] + s[19..23] + s[24..]
  }

  function ParseHyphenated(s: string): Option<Uuid>
    requires |s| == 36
  {
    if !HasHyphens(s) then None
    else match ParseHex(StripHyphens(s))
      case None => None
      case Some(digits) => Some(digits)
  }

  /**
   * `Uuid::parse_str`: 32 digits (simple), 36 characters (hyphenated),
   * 38 characters "{...}" (braced) or 45 characters "urn:uuid:..." (URN);
   * every other length fails.
   */
  function Parse(s: string): (r: Option<Uuid>)
    ensures r.Some? ==> |s| == 32 || |s| == 36 || |s| == 38 || |s| == 45
    ensures r.Some? && |s| == 36 ==> HasHyphens(s)
    ensures r.Some? && |s| == 38 ==> s[0] == '{' && s[37] == '}' && HasHyphens(s[1..37])
    ensures r.Some? && |s| == 45 ==> s[..9] == "urn:uuid:" && HasHyphens(s[9..])
  {
    if |s| == 32 then
      match ParseHex(s)
      case None => None
      case Some(digits) => Some(digits)
    else if |s| == 36 then ParseHyphenated(s)
    else if |s| == 38 && s[0] == '{' && s[37] == '}' then ParseHyphenated(s[1..37])
    else if |s| == 45 && s[..9] == "urn:uuid:" then ParseHyphenated(s[9..])
    else None
  }

  lemma SimpleParses(u: Uuid)
    ensures ParseHex(Simple(u)) == Some(u)
  {
    var d := Simple(u);
    assert forall i | 0 <= i < 32 :: IsHexDigit(d[i]) && HexValue(d[i]) == u[i];
    assert ParseHex(d).value == u;
  }

  lemma StripHyphenated(u: Uuid)
    ensures HasHyphens(Hyphenated(u))
    ensures StripHyphens(Hyphenated(u)) == Simple(u)
  {
    var d := Simple(u);
    var h := Hyphenated(u);
    assert h[..8] == d[..8];
    assert h[9..13] == d[8..12];
    assert h[14..18] == d[12..16];
    assert h[19..23] == d[16..20];
    assert h[24..] == d[20..];
    assert d == d[..8] + d[8..12] + d[12..16] + d[16..20] + d[20..];
  }

  /** The canonical rendering parses back to the same UUID. */
  lemma HyphenatedRoundTrip(u: Uuid)
    ensures Parse(Hyphenated(u)) == Some(u)
  {
    StripHyphenated(u);
    SimpleParses(u);
  }

  /** The braced form "{...}" of the canonical rendering. */
  function Braced(u: Uuid): (s: string)
    ensures |s| == 38
  {
    "{" + Hyphenated(u) + "}"
  }

  /** The URN form "urn:uuid:..." of the canonical rendering. */
  function Urn(u: Uuid): (s: string)
    ensures |s| == 45
  {
    "urn:uuid:" + Hyphenated(u)
  }

  /** The upper-case form of a character: 'a'..'f' become 'A'..'F', all else is unchanged. */
  function Upper(c: char): char {
    if 'a' <= c <= 'f' then ((c as int) - ('a' as int) + ('A' as int)) as char else c
  }

  /** The simple format written in upper case, as other producers of UUIDs print it. */
  function SimpleUpper(u: Uuid): (s: string)
    ensures |s| == 32
  {
    seq(32, i requires 0 <= i < 32 => Upper(HexChar(u[i])))
  }

  /** Each of the four accepted layouts of a UUID parses back to it. */
  lemma AllFormsParse(u: Uuid)
    ensures Parse(Simple(u)) == Some(u)
    ensures Parse(Hyphenated(u)) == Some(u)
    ensures Parse(Braced(u)) == Some(u)
    ensures Parse(Urn(u)) == Some(u)
    ensures Parse(SimpleUpper(u)) == Some(u)
  {
    SimpleParses(u);
    var d := SimpleUpper(u);
    assert forall i | 0 <= i < 32 :: IsHexDigit(d[i]) && HexValue(d[i]) == u[i];
    assert ParseHex(d).value == u;
    HyphenatedRoundTrip(u);
    assert Braced(u)[1..37] == Hyphenated(u);
    assert Urn(u)[..9] == "urn:uuid:" && Urn(u)[9..] == Hyphenated(u);
  }

  /** Rendering a parsed UUID and parsing again gives the same UUID. */
  lemma CanonicalIsFixedPoint(s: string)
    requires Parse(s).Some?
    ensures Parse(Hyphenated(Parse(s).value)) == Parse(s)
  {
    HyphenatedRoundTrip(Parse(s).value);
  }

  /** `Uuid::new_v4`: random digits with the version digit set to 4 and the variant bits to 10. */
  function NewV4(random: Uuid): (u: Uuid)
    ensures u[12] == 4 && 8 <= u[16] <= 11
    ensures forall i | 0 <= i < 32 && i != 12 && i != 16 :: u[i] == random[i]
  {
    random[12 := 4][16 := 8 + random[16] % 4]
  }
}

=== FILE: verify_2fa.dfy ===
/** The `/verify-2fa` handler: match the pending challenge and consume it. */
module Verify2FARoute {
  import opened Wrappers
  import opened Emails
  import LoginAttemptIds
  import TwoFACodes
  import DataStores
  import opened TwoFACodeStores
  import opened Cookies
  import opened ApiErrors
  import opened Auth

  datatype Verify2FARequest = Verify2FARequest(email: string, loginAttemptId: string, twoFACode: string)

  datatype Verify2FAReply = Verify2FAReply(jar: CookieJar, status: nat)

  /** The request parsed into domain values, when all three fields are well formed. */
  function ParsedChallenge(cfg: Config, request: Verify2FARequest)
    : Option<(Email, LoginAttemptIds.LoginAttemptId, TwoFACodes.TwoFACode)>
  {
    match (Emails.Parse(cfg.validEmail, request.email),
           LoginAttemptIds.Parse(request.loginAttemptId),
           TwoFACodes.Parse(request.twoFACode))
    case (Ok(email), Ok(id), Ok(code)) => Some((email, id, code))
    case _ => None
  }

  /** What `verify_2fa` answers and the 2FA map it leaves. */
  function Verify2FAResult(
    cfg: Config, codes: map<Email, DataStores.Challenge>, jar: CookieJar, request: Verify2FARequest, now: int)
    : (out: (Result<Verify2FAReply, AuthAPIError>, map<Email, DataStores.Challenge>))
    ensures out.0 == Err(InvalidCredentials) <==> ParsedChallenge(cfg, request).None?
    ensures out.1 == codes || out.1 == codes - {Email(request.email)}
    ensures out.1 != codes <==>
      ParsedChallenge(cfg, request).Some? &&
      var (email, id, code) := ParsedChallenge(cfg, request).value;
      email in codes && codes[email] == (id, code)
    ensures out.0.Ok? ==> out.1 != codes && out.0.value.status == OK
    ensures ParsedChallenge(cfg, request).Some? && out.1 == codes ==> out.0 == Err(IncorrectCredentials)
    ensures out.1 != codes ==> (out.0.Ok? <==> GenerateAuthToken(cfg, Email(request.email), now).Ok?)
    ensures out.1 != codes && out.0.Err? ==> out.0 == Err(UnexpectedError)
    ensures out.0.Ok? ==>
      out.0.value.jar == Add(jar, CreateAuthCookie(GenerateAuthToken(cfg, Email(request.email), now).value))
  {
    match Emails.Parse(cfg.validEmail, request.email)
    case Err(_) => (Err(InvalidCredentials), codes)
    case Ok(email) =>
      match LoginAttemptIds.Parse(request.loginAttemptId)
      case Err(_) => (Err(InvalidCredentials), codes)
      case Ok(id) =>
        match TwoFACodes.Parse(request.twoFACode)
        case Err(_) => (Err(InvalidCredentials), codes)
        case Ok(code) =>
          match GetCodeResult(codes, email)
          case Err(_) => (Err(IncorrectCredentials), codes)
          case Ok(found) =>
            if found.0 != id || found.1 != code then (Err(IncorrectCredentials), codes)
            else
              var (removed, codes') := RemoveCodeResult(codes, email);
              if removed.Err? then (Err(IncorrectCredentials), codes')
              else match GenerateAuthCookie(cfg, email, now)
                case Err(_) => (Err(UnexpectedError), codes')
                case Ok(cookie) => (Ok(Verify2FAReply(Add(jar, cookie), OK)), codes')
  }

  /** `verify_2fa`: parse, look the challenge up, compare both parts, remove it, then issue the cookie. */
  method Verify2FA(cfg: Config, store: HashMapTwoFACodeStore, jar: CookieJar, request: Verify2FARequest, now: int)
    returns (r: Result<Verify2FAReply, AuthAPIError>)
    modifies store
    ensures (r, store.codes) == Verify2FAResult(cfg, old(store.codes), jar, request, now)
  {
    var email := Emails.Parse(cfg.validEmail, request.email);
    if email.Err? {
      return Err(InvalidCredentials);
    }
    var id := LoginAttemptIds.Parse(request.loginAttemptId);
    if id.Err? {
      return Err(InvalidCredentials);
    }
    var code := TwoFACodes.Parse(request.twoFACode);
    if code.Err? {
      return Err(InvalidCredentials);
    }
    var found := store.GetCode(email.value);
    if found.Err? {
      return Err(IncorrectCredentials);
    }
    if found.value.0 != id.value || found.value.1 != code.value {
      return Err(IncorrectCredentials);
    }
    var removed := store.RemoveCode(email.value);
    if removed.Err? {
      return Err(IncorrectCredentials);
    }
    var cookie := GenerateAuthCookie(cfg, email.value, now);
    if cookie.Err? {
      return Err(UnexpectedError);
    }
    r := Ok(Verify2FAReply(Add(jar, cookie.value), OK));
  }
}

=== FILE: verify_token.dfy ===
/** The `/verify-token` handler: only whether `validate_token` succeeds matters. */
module VerifyTokenRoute {
  import opened Wrappers
  import opened BannedTokenStores
  import opened ApiErrors
  import opened Auth

  /** What `verify_token` answers: 200, or `InvalidToken`; the claims are dropped. */
  function VerifyTokenResult(cfg: Config, banned: set<string>, token: string, now: int): (r: Result<nat, AuthAPIError>)
    ensures r.Ok? <==> token !in banned && cfg.decode(token, now).Some?
    ensures r.Ok? ==> r.value == OK
    ensures r.Err? ==> r.error == InvalidToken
  {
    match ValidateTokenResult(cfg, banned, token, now)
    case Err(_) => Err(InvalidToken)
    case Ok(_) => Ok(OK)
  }

  /** `verify_token`: reads the revocation set and writes no store. */
  method VerifyToken(cfg: Config, store: HashSetBannedTokenStore, token: string, now: int)
    returns (r: Result<nat, AuthAPIError>)
    ensures r == VerifyTokenResult(cfg, store.bannedTokens, token, now)
  {
    var claims := ValidateToken(cfg, store, token, now);
    if claims.Err? {
      return Err(InvalidToken);
    }
    r := Ok(OK);
  }
}

=== FILE: wrappers.dfy ===
/** Option and Result, the two failure-carrying shapes the service uses. */
module Wrappers {

  datatype Option<+T> = None | Some(value: T)

  /** A Rust `Result`: either the value or the error the call reported. */
  datatype Result<+T, +E> = Ok(value: T) | Err(error: E)
}
